=== FILE: README.md ===
# Task, chat and lookup policies of ai-engineer-prep, in Dafny

This project models the deterministic policies inside a set of small Python
assistants and proves properties of them. The LLM, speech, maps and vector
database SDKs around those policies are replaced by parameters.

- **Voice todo app** (`voice-todo-app/`):
  - `parse_relative_date`, the relative date resolver;
  - the `create_task` / `update_task` / `delete_task` agent tools, in both the newer tool file and the older `TodoAgent`;
  - `process_command`'s reply selection;
  - the ChromaDB-backed task store (`Database`);
  - the task records of `models.py`.
- **LangGraph examples** (`langgraph-codes/`):
  - the in-memory todo list and its tools, with the router `should_continue`;
  - the in-memory `ThreadStore`, with the history and system-message rule of `chat_node`.
- **Travel agent** (`travel-agent/map_utils.py`):
  - the geocoding search query;
  - the Google Maps and embed links built from it.
- **Wikipedia voice bot**: `extract_topic`.

Everything is modelled with immutable datatypes and pure functions. These
are parameters:

- the clock reading `now`;
- `dateutil`'s parser, as `(text, fuzzy, default) -> ParseOutcome`: a date, a rejection (`ValueError`), or an overflow (`OverflowError`);
- the ISO date-time encoding;
- the nearest-neighbour ranking of the vector store;
- the geocoding service, URL quoting and centre computation;
- the chat model.

A date-time is a day number plus a second of the day. Day 0 is
0001-01-01, a Monday, so `weekday()` is the day number modulo 7. The last
day is 9999-12-31, as in Python. Date arithmetic past either end raises
`OverflowError`, which is not a `ValueError`: the resolver reports it as a
separate error, and each tool handles it the way its `except` clauses do.

Modules and files:

| file | module | models |
|---|---|---|
| wrappers.dfy | Wrappers | `Option`, `Result` |
| text.dfy | Text | Python `str` operations: `isspace`, `strip`, `rstrip(chars)`, `lower`, `in`, `split(sep)[0]`, `join` |
| numeric.dfy | Numeric | `str(int)` and base-10 `int(text)` |
| clock.dfy | Clock | `datetime` arithmetic: `timedelta(days=n)`, `replace(hour=0, …)`, `weekday()`, `(a - b).days` |
| date_resolver.dfy | RelativeDate | `parse_relative_date` |
| models.py → models.dfy | Models | `Priority`, `Category`, `TaskBase`, `TaskUpdate`, `Task` |
| task_order.dfy | TaskOrder | `sort(key=created_at, reverse=True)`, stable |
| task_store.dfy | TaskStore | `Database` |
| tool_args.dfy | ToolArgs | argument truthiness, aliases, outcomes, the task-resolution step |
| task_tools.dfy | TaskTools | the newer `create_task` / `update_task` / `delete_task` tools |
| legacy_tools.dfy | LegacyTools | `TodoAgent`'s tools and `process_command` |
| messages.dfy | Messages | chat messages and tool calls |
| chat_todo.dfy | ChatTodo | the LangGraph todo list |
| thread_store.dfy | ThreadStore | `ThreadStore` and `chat_node` |
| map_links.dfy | MapLinks | `_build_search_query`, `generate_google_maps_url`, `get_map_urls` |
| wiki_topic.dfy | WikiTopic | `extract_topic` |

How the source's errors appear in the model:

- A tool's reply is an `Outcome` constructor, one per reply string of the source.
- A Python exception caught by a tool's outer handler is `Crashed`.
- A function that raises in the source returns `None` or `Failure` here.

## Model

| member | source | states |
|---|---|---|
| RelativeDate.ParseRelativeDate | voice-todo-app/agent_tools.py:43-46 | The empty string is rejected as empty input. Any other text is resolved by the rules on its lower-cased, trimmed form. |
| RelativeDate.Resolve | voice-todo-app/agent_tools.py:49-57 | A text is rejected as "not a date" exactly when its normalised form contains one of the twelve complaint phrases. This check runs before every other rule. |
| RelativeDate.ResolveDate | voice-todo-app/agent_tools.py:68-114 | A named-day shortcut takes precedence. `in N day(s)` is used only when no shortcut matched; it gives midnight N days after now, or an overflow error when that day is past 9999-12-31. Otherwise the general parse decides. Rejection as "not a date" never happens here. |
| RelativeDate.NamedDay | voice-todo-app/agent_tools.py:69-100 | Today, tomorrow and yesterday give midnight of now+0, +1 and −1 days, or an overflow error when that day leaves the calendar. With a time, the parser's time of day goes on that same day: a parser rejection is "unparseable" and a parser overflow stays an overflow. Next week gives midnight of a Monday 1 to 7 days ahead, exactly 7 from a Monday, whatever time is given. It fails exactly when that Monday is past 9999-12-31. |
| RelativeDate.DaysUntilNextMonday | voice-todo-app/agent_tools.py:96-99 | The offset to next Monday is between 1 and 7, lands on a Monday, and is 7 from a Monday. |
| RelativeDate.NextMondayCorrectionIsDead | voice-todo-app/agent_tools.py:96-98 | `7 - weekday()` is never 0, so the correction to 7 never runs. |
| RelativeDate.FindInDaysFromLeftmost | voice-todo-app/agent_tools.py:103 | The search from an index finds the leftmost match of `in\s+(\d+)\s+days?` at or after it. It reports no match only when none exists. |
| RelativeDate.FindInDaysLeftmost | voice-todo-app/agent_tools.py:103-105 | The `re.search` of `in\s+(\d+)\s+days?` anywhere in the text returns the day count of the leftmost match. |
| RelativeDate.GeneralParse | voice-todo-app/agent_tools.py:109-134 | A strict parse that succeeds is always returned, on its own day, with no distance check. A strict overflow is not caught by `except (ValueError, TypeError)`: the result is an overflow error exactly when the strict parse overflows. After a strict rejection, a fuzzy parse succeeds exactly when it is at most 36500 days from now, and one farther away is "implausible". When the fuzzy parse also fails, overflow included, the result is "unparseable". The result is cut back to midnight exactly when there is no time spec and a relative day word is mentioned. |
| RelativeDate.FuzzyBoundHasOneDaySlack | voice-todo-app/agent_tools.py:123-131 | The 36500-day bound is checked before the midnight cut. So when the cut applies and now is past midnight, a fuzzy parse exactly 36500 days back is accepted and lands 36501 whole days before now. |
| RelativeDate.StrictParseIsUnbounded | voice-todo-app/agent_tools.py:112-119 | A strict parse far beyond 36500 days is still accepted. |
| Clock.AddDays | voice-todo-app/agent_tools.py:79-106 | `now + timedelta(days=n)` is defined exactly when the day stays between 0001-01-01 and 9999-12-31. It moves the day by n and keeps the time of day. |
| Clock.DeltaDays | voice-todo-app/agent_tools.py:126 | `(parsed - now).days` is the floor of the difference in days. |
| Clock.Weekday | voice-todo-app/agent_tools.py:96 | `weekday()` lies in 0..6. |
| Models.PriorityValue | voice-todo-app/models.py:7-10 | Every priority's string value converts back to that same priority. |
| Models.PriorityFromValue | voice-todo-app/models.py:7-10 | `Priority(v)` accepts exactly "low", "medium" and "high". |
| Models.CategoryValue | voice-todo-app/models.py:13-17 | Every category's value is non-empty and converts back to that category. |
| Models.CategoryFromValue | voice-todo-app/models.py:13-17 | `Category(v)` accepts exactly the four values work, personal, administrative and shopping. |
| Models.NewTask | voice-todo-app/models.py:20-24 | A task given only a title has medium priority, no schedule and no category. |
| Models.NoChange | voice-todo-app/models.py:31-35 | Every field of an empty update is absent. |
| Models.WithIdentity | voice-todo-app/models.py:38-40 | A stored task is its base fields plus an id and a creation time. |
| TaskOrder.Insert | voice-todo-app/database.py:151 | Inserting into a newest-first list keeps it newest-first and adds exactly one element. |
| TaskOrder.SortNewestFirst | voice-todo-app/database.py:150-151 | The sorted list is newest-first and a permutation of its input. |
| TaskOrder.InsertStable | voice-todo-app/database.py:151 | An inserted task goes in front of the tasks with its creation time and leaves their order alone. |
| TaskOrder.SortStable | voice-todo-app/database.py:150-151 | Tasks with equal creation times keep their relative order, as Python's stable sort keeps them. |
| TaskStore.InitIdCounter | voice-todo-app/database.py:26-43 | The counter starts above every id that `int()` accepts. It is exactly one past the largest such positive id, or 1. Ids that `int()` rejects are skipped. |
| TaskStore.Open | voice-todo-app/database.py:23-24 | A store opened on an existing collection starts with a counter that keeps new ids fresh. The constructor checks nothing. The caller supplies distinct keys and each record's metadata id equal to its key. This holds for a collection this program wrote. |
| TaskStore.NextId | voice-todo-app/database.py:45-49 | The id handed out is the counter's value; the counter strictly increases. |
| TaskStore.TaskToText | voice-todo-app/database.py:64-69 | The embedded text is the title, then a space and the category value when there is a category. |
| TaskStore.MetadataToTask | voice-todo-app/database.py:85-98 | A converted task has the integer value of the stored id, the stored title and priority, and a category exactly when one is stored. |
| TaskStore.MetadataRoundTrip | voice-todo-app/database.py:71-98 | Writing a task's metadata and reading it back recovers id, title, priority, schedule, category and creation time, given an ISO encoding that round-trips. |
| TaskStore.FindRecord | voice-todo-app/database.py:125-127 | A lookup by key finds the first record stored under it, or reports that none is. |
| TaskStore.GetTask | voice-todo-app/database.py:122-131 | A task is returned only if a record is stored under `str(id)`. In a well-formed store it carries the id asked for. |
| TaskStore.RemoveKey | voice-todo-app/database.py:235 | Deleting a key keeps exactly the records under other keys, in their original order. A single record is kept exactly when its key differs. |
| TaskStore.RemoveKeyAppend | voice-todo-app/database.py:235 | Removing a key from two concatenated parts gives the removal from each part, concatenated, so the order of the survivors is the original order. |
| TaskStore.CreateTask | voice-todo-app/database.py:100-120 | Creating appends one record under the counter's id and advances the counter. The record holds the task's metadata, its text and that text's embedding. The reply is what the new store reads back under that id. In a well-formed store this is the given task, with the counter's id and `now` as creation time. |
| TaskStore.FreshKey | voice-todo-app/database.py:102 | The counter's next id is not yet the key of any record. |
| TaskStore.CreateReadsBack | voice-todo-app/database.py:113-120 | The appended record keeps the store well-formed and reads back as the created task. |
| TaskStore.Merge | voice-todo-app/database.py:163-167 | Each field takes the update's value when set, else the stored one. |
| TaskStore.UpdateTask | voice-todo-app/database.py:157-230 | A missing id changes nothing. Otherwise the record is removed and re-added last with the merged metadata, and every other record is kept in order. The reply is what the new store reads back under the id. In a well-formed store the task reads back merged, keeping its id and creation time. The embedding is recomputed from the merged text when title or category is set, and kept otherwise. The counter is untouched and the store stays well-formed. |
| TaskStore.UpdateReadsBack | voice-todo-app/database.py:195-230 | The delete-and-re-add keeps the store well-formed and reads back as the merged task. |
| TaskStore.UpdateLeavesOthers | voice-todo-app/database.py:210-228 | An update changes what no other id reads back. |
| TaskStore.DeleteTask | voice-todo-app/database.py:232-238 | Delete always reports success. Afterwards the id reads back as absent, and exactly the other records remain, in their original order. |
| TaskStore.DeleteLeavesOthers | voice-todo-app/database.py:232-238 | A deletion changes what no other id reads back. |
| TaskStore.LookupAfterRemove | voice-todo-app/database.py:211 | Deleting one key does not change the lookup of another. |
| TaskStore.LookupAfterAppend | voice-todo-app/database.py:223-228 | Adding a record under one key does not change the lookup of another. |
| TaskStore.ConvertAll | voice-todo-app/database.py:145-148 | Converting a list of records fails exactly when one record fails to convert; otherwise it converts every record in place. |
| TaskStore.SelectCategory | voice-todo-app/database.py:136-143 | The category filter keeps exactly the records with that category, each as often as it is stored, in store order. A missing or empty category keeps them all. |
| TaskStore.ListTasks | voice-todo-app/database.py:145-155 | The listing is newest-first. It is empty when any conversion fails; otherwise it is a permutation of the converted records. |
| TaskStore.ListTasksFailsOnAnyRecord | voice-todo-app/database.py:145-148 | One record that fails to convert empties the listing. |
| TaskStore.ListTasksKeepsOrderOnTies | voice-todo-app/database.py:145-155 | Listed tasks created at the same instant keep the order of their records. |
| TaskStore.ListTasksListsEach | voice-todo-app/database.py:145-155 | When every record converts, the listing has one task per record and contains each record's task. |
| TaskStore.ListTasksFromRecords | voice-todo-app/database.py:145-155 | Every listed task is the conversion of one of the records. |
| TaskStore.GetAllTasks | voice-todo-app/database.py:133-155 | The listing of the records the category filter selects: newest first, empty when one of them fails to convert, otherwise a permutation of their conversions. |
| TaskStore.GetAllTasksFromSelected | voice-todo-app/database.py:133-155 | Every listed task comes from a stored record that the category filter selects. |
| TaskStore.GetAllTasksFailsOnAnyRecord | voice-todo-app/database.py:133-155 | One selected record that fails to convert empties the list. |
| TaskStore.GetAllTasksListsEverySelected | voice-todo-app/database.py:133-155 | When every selected record converts, the task of each of them is listed. |
| TaskStore.SearchTasks | voice-todo-app/database.py:240-262 | The first 10 records of the ranking, converted and listed newest first rather than by closeness. The list is empty when one of them fails to convert; otherwise it is a permutation of their conversions. |
| TaskStore.TopHits | voice-todo-app/database.py:247-250 | `n_results=10` keeps the first ten of the ranking, or all of it when shorter. |
| TaskStore.SearchKeepsRankingOnTies | voice-todo-app/database.py:247-262 | Hits created at the same instant stay in the ranking's order, because the sort is stable. |
| TaskStore.SearchFindsStoredTasks | voice-todo-app/database.py:240-262 | With a ranking that returns only records of the collection, every task found comes from a stored record. |
| ToolArgs.PriorityAlias | voice-todo-app/agent_tools.py:191-196 | The priority map accepts exactly low, medium and high in any letter case. |
| ToolArgs.CategoryAlias | voice-todo-app/agent_tools.py:200-210 | The category map accepts exactly the four values and `admin` and `shop`, after trimming and lower-casing. |
| ToolArgs.Schedule | voice-todo-app/agent_tools.py:214-222 | No schedule text means no schedule. Given text resolves exactly when the relative date resolver succeeds, to its date, and fails with the resolver's error. |
| ToolArgs.ScheduleError | voice-todo-app/agent_tools.py:217-239 | Only a `ValueError` is reported as "could not parse". An overflow, which is not a `ValueError`, reaches the generic handler and crashes the call. |
| ToolArgs.FirstSearchHit | voice-todo-app/agent_tools.py:258-260 | The title search takes the id of the newest of the hits, not the closest one. It finds nothing exactly when the search is empty. |
| ToolArgs.FirstSearchHitBreaksTiesByRank | voice-todo-app/agent_tools.py:258-260 | Among the newest hits, the title search picks the one the ranking lists first. |
| ToolArgs.ResolveTarget | voice-todo-app/agent_tools.py:257-266 | A non-zero id wins. Without one, a title search supplies its first hit, and "not found" is reported for an empty search. With neither, the tool asks which task is meant. |
| TaskTools.ValidateCreate | voice-todo-app/agent_tools.py:183-229 | Checks run in order: blank title, then unknown category, then a schedule that does not resolve; the call is accepted exactly when all three pass. A schedule overflow crashes the call, any other date error is "could not parse". An unknown priority becomes medium. The title is trimmed, and the schedule is the relative date resolver's result. |
| TaskTools.CreateTaskTool | voice-todo-app/agent_tools.py:174-239 | A rejected call leaves the store unchanged. An accepted one stores the validated task through the store's create. In a well-formed store it reports that task under the next id with `now` as creation time. |
| TaskTools.ValidateUpdate | voice-todo-app/agent_tools.py:272-307 | Checks run in order: blank new title, unknown priority (an error here), a schedule that does not resolve, unknown category. The call is accepted exactly when all pass and at least one field is given. "No update fields" is reported exactly when nothing is given. |
| TaskTools.ValidationNeverMutates | voice-todo-app/agent_tools.py:272-307 | Field validation rejects only with replies that report no change. |
| TaskTools.UpdateResolved | voice-todo-app/agent_tools.py:268-316 | A missing task is reported before validation. A rejected update leaves the store unchanged. Once the update of an existing task runs, the store is the store's update for that id, whatever the read-back gives. The reply is the merged title when the task reads back, and "not found" when it does not. In a well-formed store with a round-tripping codec the task always reads back, so there the store changes only on a reported update. |
| TaskTools.UpdateTaskTool | voice-todo-app/agent_tools.py:241-322 | The task is resolved, checked for existence and validated before the store is touched. Once the store's update runs, its store stands even when the read-back fails and the reply is "not found". In a well-formed store with a round-tripping codec, the store changes only when the reply reports an update. A valid update of an existing task is the store's update and reports the merged title. |
| TaskTools.DeleteStartId | voice-todo-app/agent_tools.py:334-337 | `task_number` stands in for the id only when no id is given. |
| TaskTools.DeleteTaskTool | voice-todo-app/agent_tools.py:324-361 | A missing task is reported without a mutation. A found task is deleted through the store's delete of that one id, which removes only the records under its key. It then reads back as absent, and every other task reads back as before. |
| LegacyTools.RawCategory | voice-todo-app/agent.py:77-82 | The older tools pass the category to the task model unmapped. Only the four exact values are accepted; any other, including "", crashes the call. |
| LegacyTools.PlainSchedule | voice-todo-app/agent.py:70-75 | A schedule is kept exactly when the plain `dateutil` parse returns a date. The bare `except: pass` drops every failure, an overflow included. |
| LegacyTools.LegacyCreate | voice-todo-app/agent.py:52-86 | A bad category crashes the call without touching the store. Otherwise the store's create runs on the untrimmed title, the priority (medium when unknown), the plain parse of the schedule and the exact category. In a well-formed store it reports that task under the next id. |
| LegacyTools.LegacyFields | voice-todo-app/agent.py:113-130 | An unknown priority becomes medium. A schedule that does not parse is dropped silently, so it can leave "no update fields". A bad category crashes the call. |
| LegacyTools.LegacyUpdate | voice-todo-app/agent.py:88-138 | No existence check before the update. A missing task is reported from the store's answer. Accepted fields always give the store's update, even when its read-back fails and the reply is "not found". In a well-formed store with a round-tripping codec the store changes only on a reported update. A valid update of an existing task is the store's update, reporting the merged title. |
| LegacyTools.PositionTarget | voice-todo-app/agent.py:150-155 | A non-zero `task_number` is a 1-based position in the full newest-first list. Out of range it stops the call with "Task number N not found". |
| LegacyTools.LegacyDelete | voice-todo-app/agent.py:140-174 | Resolution order is position, then title search, then asking. A missing task is reported without a mutation. A found task is deleted through the store's delete of that one id: it reads back as absent, and every other id reads back as before. |
| LegacyTools.PositionOverridesId | voice-todo-app/agent.py:150-153 | With both an id and an in-range position, the older tool deletes the listed task and the newer one the explicit id. |
| LegacyTools.LastAiReply | voice-todo-app/agent.py:235-237 | The backward scan finds the last AI message with non-empty content, or proves there is none. |
| LegacyTools.CommandReply | voice-todo-app/agent.py:233-244 | The reply is the content of the last AI message with non-empty content. Failing that, it is the last message's content, or "No response generated.". It is never empty. |
| ChatTodo.AddTodo | langgraph-codes/chat_todo.py:19-32 | Appends exactly one open item with id = previous length + 1 and leaves the others. The reply names the task and that id. |
| ChatTodo.ListTodos | langgraph-codes/chat_todo.py:35-45 | "No todos found." exactly for an empty list. Otherwise a non-empty listing that starts with the header's `T` and does not end in whitespace. |
| ChatTodo.ListTodosTrimsListing | langgraph-codes/chat_todo.py:41-45 | A non-empty listing is a prefix of the header and the lines in list order, cut only at trailing whitespace. It starts with the header and the first item's mark and id. |
| ChatTodo.ListingKeepsFirstHead | langgraph-codes/chat_todo.py:41-45 | The final strip removes only trailing whitespace and keeps the header and the first line's mark and id. |
| ChatTodo.LinesAppend | langgraph-codes/chat_todo.py:42-44 | The lines of a concatenation are the lines of its parts in order. |
| ChatTodo.AddedItemListedLast | langgraph-codes/chat_todo.py:19-45 | After `add_todo` the listing lines are the old lines unchanged, followed by the line of the new open item. |
| ChatTodo.FirstWithId | langgraph-codes/chat_todo.py:55-56 | Finds the first item with the id, or shows that none has it. |
| ChatTodo.CompleteTodo | langgraph-codes/chat_todo.py:48-59 | Marks only the first item with the id. Length, order and every other item are unchanged. A missing id changes nothing and is reported. |
| ChatTodo.DeleteTodo | langgraph-codes/chat_todo.py:62-75 | Removes exactly the first item with the id and keeps the rest in order, as a multiset difference of one. A missing id changes nothing. |
| ChatTodo.IdsCanRepeat | langgraph-codes/chat_todo.py:26-31 | After add, add, delete and add, two items carry the same id. |
| ChatTodo.ShouldContinue | langgraph-codes/chat_todo.py:122-127 | Routes to the tools exactly when the last message carries tool calls. |
| ThreadStore.EmptyStore | langgraph-codes/chat_threads_memory.py:13-15 | A new store has no threads. |
| ThreadStore.GetThread | langgraph-codes/chat_threads_memory.py:17-19 | An unknown thread reads as empty. |
| ThreadStore.AddMessage | langgraph-codes/chat_threads_memory.py:21-25 | Appends to the end of one thread, creating it if needed; every other thread is unchanged. |
| ThreadStore.GetAllThreads | langgraph-codes/chat_threads_memory.py:27-29 | Lists each thread id exactly once. |
| ThreadStore.AddMessages | langgraph-codes/chat_threads_memory.py:67-68 | Appending the messages one by one extends only that thread, by exactly those messages. |
| ThreadStore.ModelInput | langgraph-codes/chat_threads_memory.py:50-61 | The model sees the history and new messages, with the system message put in front exactly when they do not already start with one. |
| ThreadStore.ChatNode | langgraph-codes/chat_threads_memory.py:46-71 | The thread grows by the new messages then the reply, one more than the new messages; the added system message is never stored. Other threads are unchanged. |
| ThreadStore.Replay | langgraph-codes/chat_threads_memory.py:21-25 | Any sequence of `add_message` calls on a new store keeps it well-formed. |
| ThreadStore.AllThreadsInFirstMessageOrder | langgraph-codes/chat_threads_memory.py:21-29 | `get_all_threads` lists exactly the ids that received a message, in the order of their first message. |
| MapLinks.SearchQuery | travel-agent/map_utils.py:17-51 | A string is its own query. A place's query is its name, then its country when set, then its trimmed context when that is shorter than 50 and not already in the name (ignoring case), joined by ", ". The place type never matters. |
| MapLinks.BlankContextNeverAdded | travel-agent/map_utils.py:45-49 | A context that trims to nothing is never added. |
| MapLinks.Geocode | travel-agent/map_utils.py:64-80 | Without an API key nothing geocodes. With a key, the service is asked for the place's search query, and its answer is the result. |
| MapLinks.Located | travel-agent/map_utils.py:109-115 | At most one entry per place, and none without an API key. The list is empty exactly when no place geocodes. |
| MapLinks.LocatedAppend | travel-agent/map_utils.py:109-115 | The places of a concatenation that geocode are those of the first part followed by those of the second, so the entries keep the order of the places. |
| MapLinks.LocatedEntriesArePlaces | travel-agent/map_utils.py:109-115 | Every entry is the display name and coordinates of a place that geocodes. |
| MapLinks.LocatedListsEveryPlace | travel-agent/map_utils.py:109-115 | Every place that geocodes appears with its display name and coordinates. |
| MapLinks.EmbedByName | travel-agent/map_utils.py:212-227 | The fallback embed link exists exactly when there is at least one place. |
| MapLinks.CoordinateLink | travel-agent/map_utils.py:169-191 | One point gives a search link. Two give directions from the first point to the second. Three or more give directions from the first point through the middle points, joined by a vertical bar, to the last. |
| MapLinks.EmbedView | travel-agent/map_utils.py:151-168 | The embed link is a view with the key and a centre, ending in the markers of every point in order. |
| MapLinks.MapsUrl | travel-agent/map_utils.py:94-191 | An empty list gives the maps home page. When nothing geocodes, the links come from the quoted queries whatever the embed flag says. The result is never None or empty, so the embed-by-name branch and `return None` are unreachable. |
| MapLinks.NoKeyLinksAgree | travel-agent/map_utils.py:105-127 | Without a key the embed link and the plain link are the same query-built link. |
| MapLinks.MapUrls | travel-agent/map_utils.py:194-230 | Both links are exactly those of `generate_google_maps_url` and are never empty, so the fallback embed generation never runs. |
| WikiTopic.StarterFrom | voice-agent/wikipedia_voice_bot.py:87-92 | The scan finds the first phrase at or after an index that starts the text. |
| WikiTopic.FirstStarter | voice-agent/wikipedia_voice_bot.py:81-92 | Finds the first phrase in list order that starts the question, or shows that none does. |
| WikiTopic.DropStarter | voice-agent/wikipedia_voice_bot.py:87-92 | Removes at most one phrase, then trims and drops only trailing `.,!?`. A question with no phrase is unchanged. |
| WikiTopic.DropAbout | voice-agent/wikipedia_voice_bot.py:95-96 | A leading "about " is removed and the rest trimmed, whether or not a phrase was removed. |
| WikiTopic.TitleFrom | voice-agent/wikipedia_voice_bot.py:102 | Title case upper-cases a letter after a non-letter and lower-cases one after a letter. Other characters are unchanged. |
| WikiTopic.Title | voice-agent/wikipedia_voice_bot.py:102 | Title case keeps the length and the letters up to case, and leaves other characters alone. A letter at the start or after a non-letter becomes upper case; a letter after a letter becomes lower case. |
| WikiTopic.ExtractTopic | voice-agent/wikipedia_voice_bot.py:75-104 | The trimmed question when the topic is empty. Otherwise exactly the title case of the topic, which lower-cases back to it. |
| WikiTopic.TitleCapitalisesWords | voice-agent/wikipedia_voice_bot.py:102 | On lower-case text, title case makes the first letter of each run of letters a capital and the rest small. |
| WikiTopic.TopicWordsCapitalised | voice-agent/wikipedia_voice_bot.py:75-104 | The returned topic starts each of its words with a capital and continues in small letters. |
| WikiTopic.KeyIsPieceOfQuestion | voice-agent/wikipedia_voice_bot.py:78-99 | The topic is a contiguous piece of the lower-cased question. |
| WikiTopic.TopicIsFirstPhrase | voice-agent/wikipedia_voice_bot.py:99 | The topic holds no comma, question mark, " and " or " or ", and has no surrounding whitespace. |
| WikiTopic.TopicIsLowerCase | voice-agent/wikipedia_voice_bot.py:78-99 | The topic is lower-case before title-casing. |
| WikiTopic.HiCutsAnyWord | voice-agent/wikipedia_voice_bot.py:81-92 | Phrases match as raw prefixes: "hi" is removed from any question that starts with it, such as "history of rome". |
| Numeric.IntRoundTrip | voice-todo-app/database.py:74-92 | `int(str(n)) == n` for every integer, so a task id written as the metadata key reads back. |
| Numeric.IntToStringInjective | voice-todo-app/database.py:114 | Distinct ids give distinct record keys. |

## Left out

- I/O of every kind is parameters or absent:
  - the OpenAI embedding call, the ChromaDB client and its persistence;
  - the geocoding HTTP request and Wikipedia, Deepgram and Cartesia;
  - logging and `print`.
- The chat models and agent wiring (`create_agent`, `StateGraph`) are parameters. A reply is a function of the messages shown.
- `run_async` and the `session_id` keyword are not reproduced. The newer tools pass `session_id` to store methods that do not accept it. The model calls the store directly.
- Embeddings: an embedding is the text it was computed from. Cosine ranking is the `Ranking` parameter. The zero-vector fallback when the embedding call fails is not modelled.
- TaskTools.UpdateResolved: an unchanged store on every reply other than an update is promised only for a well-formed store with a round-tripping codec. Otherwise the record may already be rewritten when the read-back fails and "not found" is reported, as in the source.
- TaskTools.UpdateTaskTool: the same condition as UpdateResolved on the unchanged store, for the same reason.
- LegacyTools.LegacyUpdate: the same condition as UpdateResolved on the unchanged store, for the same reason.
- The category `where` filter is modelled as exact equality on the stored category.
- TaskStore.UpdateTask: when neither title nor category changes, the stored document and embedding are kept. The source refetches the record without embeddings (ChromaDB's default), so it recomputes them. The two agree whenever the stored document is the task's text.
- Date-times have second resolution and no time zone. Microseconds are dropped.
- RelativeDate.GeneralParse: a fuzzy result that carries a time zone ("at 3pm UTC", a numeric offset) is not modelled. In the source, subtracting the naive `now` from it raises TypeError, which the fuzzy handler turns into a rejection (`voice-todo-app/agent_tools.py:126-134`). The model's parser outcome carries no zone, so here such a result is accepted whenever it is within 36500 days.
- ISO formatting and parsing is the `IsoCodec` parameter, with a round-trip assumption where a property needs one.
- Text.Lower, WikiTopic.Title: case mapping covers ASCII letters only, where Python maps all of Unicode.
- Numeric.ParsePyInt, RelativeDate.FindInDays, RelativeDate.HasTimeSpec: digits are ASCII only, where Python's `int()` and `\d` accept every Unicode decimal digit.
- Floating point is left out:
  - coordinates are the text Python prints for them;
  - the centre average and `urllib.parse.quote` are parameters of `MapsConfig`.
- MapLinks.MapsUrl: the embed branch for "no coordinates" (`travel-agent/map_utils.py:135-149`) is not written into the function, because the branch before it already returned. The same links appear as `EmbedByName` in `get_map_urls`' fallback, which is modelled.
- A tool's reply is an `Outcome` constructor, not the reply string. Exception messages are not modelled (`Crashed`).
- `process_command`'s branch for dict-shaped messages and its exception text are not modelled. Messages are always message objects here.
- The `list_tasks` and `search_tasks` tools, which only format store results, and `generate_shareable_map_html` are not modelled.
- Printing of tool output and the LangGraph tool node, which dispatches tool calls by name, are not modelled.

=== FILE: chat_todo.dfy ===
/** The todo list of the LangGraph todo chat: an in-memory list of items
    with four tools over it, and the router that sends the model's tool
    calls to the tool node. Ids are handed out as the list length plus one,
    so after a deletion they need not be unique; nothing here assumes they are. */
module ChatTodo {

  import opened Wrappers
  import opened Text
  import opened Numeric
  import opened Messages

  datatype Todo = Todo(id: int, task: string, completed: bool)

  /** `add_todo`: appends one open item numbered one past the current length. */
  function AddTodo(todos: seq<Todo>, task: string): (r: (seq<Todo>, string))
    ensures |r.0| == |todos| + 1
    ensures r.0[..|todos|] == todos
    ensures r.0[|todos|] == Todo(|todos| + 1, task, false)
    ensures r.1 == "Added todo: " + task + " (ID: " + IntToString(|todos| + 1) + ")"
  {
    var item := Todo(|todos| + 1, task, false);
    (todos + [item], "Added todo: " + task + " (ID: " + IntToString(item.id) + ")")
  }

  /** The status mark of an item: a check mark when done, an open circle otherwise. */
  function Mark(t: Todo): char {
    if t.completed then '✓' else '○'
  }

  /** The start of an item's line: its mark and its bracketed id. */
  function LineHead(t: Todo): string {
    [Mark(t)] + " [" + IntToString(t.id) + "]"
  }

  /** One line of the listing, without its newline. */
  function TodoLine(t: Todo): string {
    LineHead(t) + " " + t.task
  }

  /** The listing body: every item's line followed by a newline, in list order. */
  function Lines(todos: seq<Todo>): string {
    if |todos| == 0 then "" else TodoLine(todos[0]) + "\n" + Lines(todos[1..])
  }

  const ListHeader := "Todo List:\n"

  /** `list_todos`: a fixed reply for an empty list; otherwise the header and
      one line per item, in list order, with the whitespace at the end of
      the last line trimmed. */
  function ListTodos(todos: seq<Todo>): (r: string)
    ensures |todos| == 0 <==> r == "No todos found."
    ensures |todos| > 0 ==> |r| > 0 && r[0] == 'T' && !IsSpace(r[|r| - 1])
  {
    if |todos| == 0 then "No todos found."
    else
      var full := ListHeader + Lines(todos);
      ListingKeepsFirstHead(todos, full);
      Strip(full)
  }

  /** A non-empty listing is the header and the lines in list order with
      only trailing whitespace trimmed, so it starts with the first item's
      mark and id. */
  lemma ListTodosTrimsListing(todos: seq<Todo>)
    requires |todos| > 0
    ensures var full := ListHeader + Lines(todos);
      var r := ListTodos(todos);
      && r <= full
      && (forall i :: |r| <= i < |full| ==> IsSpace(full[i]))
      && ListHeader + LineHead(todos[0]) <= r
  {
    ListingKeepsFirstHead(todos, ListHeader + Lines(todos));
  }

  lemma ListingKeepsFirstHead(todos: seq<Todo>, full: string)
    requires |todos| > 0 && full == ListHeader + Lines(todos)
    ensures Strip(full) <= full
    ensures forall j :: |Strip(full)| <= j < |full| ==> IsSpace(full[j])
    ensures ListHeader + LineHead(todos[0]) <= Strip(full)
    ensures |Strip(full)| > 0 && !IsSpace(Strip(full)[|Strip(full)| - 1])
    ensures Strip(full)[0] == 'T'
  {
    HeaderAndHeadLeadListing(LineHead(todos[0]), todos[0].task, Lines(todos[1..]), full);
    StripKeepsPrefix(full, ListHeader + LineHead(todos[0]));
    assert (ListHeader + LineHead(todos[0]))[0] == 'T';
  }

  /** The header and the first line's head, which ends in `]`, start the listing. */
  lemma HeaderAndHeadLeadListing(x: string, task: string, tail: string, full: string)
    requires |x| > 0 && x[|x| - 1] == ']'
    requires full == ListHeader + (x + " " + task + "\n" + tail)
    ensures ListHeader + x <= full && !IsSpace(full[0])
    ensures var head := ListHeader + x; !IsSpace(head[|head| - 1])
  {
    assert full == (ListHeader + x) + (" " + task + "\n" + tail);
    PrefixOfAppend(ListHeader + x, " " + task + "\n" + tail);
  }

  lemma PrefixOfAppend(p: string, q: string)
    ensures p <= p + q
  {
    assert (p + q)[..|p|] == p;
  }

  /** Stripping text that starts with a non-space only trims its end, and
      keeps any prefix that ends in a non-space character. */
  lemma StripKeepsPrefix(s: string, p: string)
    requires p <= s && |p| > 0 && !IsSpace(s[0]) && !IsSpace(p[|p| - 1])
    ensures Strip(s) <= s && p <= Strip(s)
    ensures forall j :: |Strip(s)| <= j < |s| ==> IsSpace(s[j])
    ensures Strip(s) != "" && !IsSpace(Strip(s)[|Strip(s)| - 1])
  {
    assert LStrip(s) == s;
    assert s[|p| - 1] == p[|p| - 1];
  }

  /** Listing order is list order: the lines of `a + b` are those of `a` followed by those of `b`. */
  lemma {:induction false} LinesAppend(a: seq<Todo>, b: seq<Todo>)
    ensures Lines(a + b) == Lines(a) + Lines(b)
  {
    if |a| == 0 {
      assert a + b == b;
    } else {
      assert (a + b)[0] == a[0];
      assert (a + b)[1..] == a[1..] + b;
      LinesAppend(a[1..], b);
    }
  }

  /** The listing after `add_todo` holds the old lines unchanged, followed
      by the line of the new open item. */
  lemma {:induction false} AddedItemListedLast(todos: seq<Todo>, task: string)
    ensures Lines(AddTodo(todos, task).0)
      == Lines(todos) + TodoLine(Todo(|todos| + 1, task, false)) + "\n"
  {
    var item := Todo(|todos| + 1, task, false);
    LinesAppend(todos, [item]);
    assert [item][1..] == [];
  }

  /** The index of the first item with id `id`. */
  function FirstWithId(todos: seq<Todo>, id: int): (r: Option<nat>)
    ensures r.Some? ==> r.value < |todos| && todos[r.value].id == id
    ensures r.Some? ==> forall j :: 0 <= j < r.value ==> todos[j].id != id
    ensures r.None? ==> forall j :: 0 <= j < |todos| ==> todos[j].id != id
  {
    if |todos| == 0 then None
    else if todos[0].id == id then Some(0)
    else match FirstWithId(todos[1..], id)
      case Some(i) => Some(i + 1)
      case None => None
  }

  /** `complete_todo`: marks the first item with the id done and changes
      nothing else; a missing id changes nothing and is reported. */
  function CompleteTodo(todos: seq<Todo>, id: int): (r: (seq<Todo>, string))
    ensures |r.0| == |todos|
    ensures (forall j :: 0 <= j < |todos| ==> todos[j].id != id) ==>
      r == (todos, "Todo with ID " + IntToString(id) + " not found.")
    ensures (exists j :: 0 <= j < |todos| && todos[j].id == id) ==>
      exists i :: 0 <= i < |todos| && todos[i].id == id
        && (forall j :: 0 <= j < i ==> todos[j].id != id)
        && r.0[i] == todos[i].(completed := true)
        && (forall j :: 0 <= j < |todos| && j != i ==> r.0[j] == todos[j])
        && r.1 == "Completed todo: " + todos[i].task
  {
    match FirstWithId(todos, id)
    case None => (todos, "Todo with ID " + IntToString(id) + " not found.")
    case Some(i) => (todos[i := todos[i].(completed := true)], "Completed todo: " + todos[i].task)
  }

  /** `delete_todo`: removes the first item with the id and keeps the others
      in order; a missing id changes nothing and is reported. */
  function DeleteTodo(todos: seq<Todo>, id: int): (r: (seq<Todo>, string))
    ensures (forall j :: 0 <= j < |todos| ==> todos[j].id != id) ==>
      r == (todos, "Todo with ID " + IntToString(id) + " not found.")
    ensures (exists j :: 0 <= j < |todos| && todos[j].id == id) ==>
      exists i :: 0 <= i < |todos| && todos[i].id == id
        && (forall j :: 0 <= j < i ==> todos[j].id != id)
        && r.0 == todos[..i] + todos[i + 1..]
        && multiset(r.0) + multiset{todos[i]} == multiset(todos)
        && r.1 == "Deleted todo: " + todos[i].task
  {
    match FirstWithId(todos, id)
    case None => (todos, "Todo with ID " + IntToString(id) + " not found.")
    case Some(i) =>
      assert todos == todos[..i] + [todos[i]] + todos[i + 1..];
      (todos[..i] + todos[i + 1..], "Deleted todo: " + todos[i].task)
  }

  /** Ids are not unique: add two items, delete the first, add a third, and
      the third gets the id the second already has. */
  lemma IdsCanRepeat(a: string, b: string, c: string)
    ensures var l1 := AddTodo([], a).0;
      var l2 := AddTodo(l1, b).0;
      var l3 := DeleteTodo(l2, 1).0;
      var l4 := AddTodo(l3, c).0;
      |l4| == 2 && l4[0].id == l4[1].id == 2
  {
    var l2 := AddTodo(AddTodo([], a).0, b).0;
    assert l2 == [Todo(1, a, false), Todo(2, b, false)];
    assert FirstWithId(l2, 1) == Some(0);
  }

  /** Where the graph goes after the model speaks. */
  datatype Route = ToTools | ToEnd

  /** `should_continue`: to the tool node exactly when the last message asks
      for tool calls. None for an empty history, where the source raises. */
  function ShouldContinue(messages: seq<Message>): (r: Option<Route>)
    ensures |messages| == 0 <==> r.None?
    ensures r == Some(ToTools) <==> |messages| > 0 && |messages[|messages| - 1].toolCalls| > 0
  {
    if |messages| == 0 then None
    else if |messages[|messages| - 1].toolCalls| > 0 then Some(ToTools)
    else Some(ToEnd)
  }
}

=== FILE: clock.dfy ===
/** Python `datetime` values as the model sees them: a day number and the
    second within that day. Day 0 is 0001-01-01 of the proleptic Gregorian
    calendar (Python's `date.toordinal() - 1`), which is a Monday, so the
    weekday is the day number modulo 7 with Monday as 0, as `weekday()`
    numbers it. Python's calendar ends at 9999-12-31, so a day number is
    bounded on both sides, and arithmetic that leaves it fails. */
module Clock {

  import opened Wrappers

  const SecondsPerDay: int := 86400

  /** The day number of 9999-12-31, the last day a `datetime` can hold. */
  const MaxDay: int := 3652058

  type DayNumber = d: int | 0 <= d <= MaxDay

  type SecondOfDay = s: int | 0 <= s < 86400

  datatype DateTime = DateTime(day: DayNumber, secs: SecondOfDay)

  /** `weekday()`: Monday is 0 and Sunday is 6. */
  function Weekday(day: int): (w: int)
    ensures 0 <= w < 7
  {
    day % 7
  }

  /** `t + timedelta(days=n)`: None where Python raises OverflowError
      because the result leaves the calendar. (A `timedelta` of more than
      999999999 days raises the same error, and lies outside it anyway.) */
  function AddDays(t: DateTime, n: int): (r: Option<DateTime>)
    ensures r.Some? <==> 0 <= t.day + n <= MaxDay
    ensures r.Some? ==> r.value.day == t.day + n && r.value.secs == t.secs
  {
    if 0 <= t.day + n <= MaxDay then Some(DateTime(t.day + n, t.secs)) else None
  }

  /** `t.replace(hour=0, minute=0, second=0, microsecond=0)` */
  function Midnight(t: DateTime): (r: DateTime)
    ensures r.day == t.day && r.secs == 0
  {
    DateTime(t.day, 0)
  }

  /** Seconds since the start of day 0; the order of date-times. */
  function Instant(t: DateTime): int {
    t.day * SecondsPerDay + t.secs
  }

  /** `(later - earlier).days`: a timedelta is normalised so that its seconds
      part lies in [0, 86400), so `.days` is the floor of the difference in days. */
  function DeltaDays(later: DateTime, earlier: DateTime): (d: int)
    ensures d * SecondsPerDay <= Instant(later) - Instant(earlier) < (d + 1) * SecondsPerDay
  {
    (Instant(later) - Instant(earlier)) / SecondsPerDay
  }

  function Abs(x: int): nat {
    if x < 0 then -x else x
  }
}

=== FILE: date_resolver.dfy ===
/** The relative date resolver of the voice todo app (`parse_relative_date`):
    turns a spoken scheduling phrase into a date-time anchored at `now`, or
    rejects it. The general-purpose date parser it falls back on is a
    parameter, `parse(text, fuzzy, default)`. Errors that the resolver's own
    handlers do not catch (OverflowError) are kept apart from the ValueErrors
    it raises, because its callers treat the two differently. */
module RelativeDate {

  import opened Wrappers
  import opened Text
  import opened Numeric
  import opened Clock

  /** What one call of `dateutil.parser.parse(text, fuzzy=..., default=...)`
      does: it returns a date-time, rejects the text (ValueError or
      TypeError), or raises OverflowError. */
  datatype ParseOutcome = Parsed(at: DateTime) | Rejected | Overflow

  type DateParser = (string, bool, DateTime) -> ParseOutcome

  datatype DateError =
    | EmptyInput          // the empty string
    | NotADateStatement   // a complaint about the time, not a date
    | Unparseable         // the parser rejected the text
    | Implausible         // a fuzzy parse landed more than 36500 days from now
    | OutOfRange          // OverflowError: the date left the calendar; not a ValueError

  /** Phrases that mark a statement about the time rather than a date. */
  const ComplaintPhrases: seq<string> := [
    "time is", "date is", "time was", "date was",
    "wrong time", "wrong date", "incorrect time", "incorrect date",
    "time wrong", "date wrong", "time incorrect", "date incorrect"
  ]

  /** A fuzzy parse further than this many whole days from now is rejected. */
  const FuzzyBoundDays: int := 36500

  /** The lower-cased, trimmed form every rule inspects. */
  function Normalize(text: string): (s: string)
    ensures |s| <= |text|
  {
    Strip(Lower(text))
  }

  predicate IsComplaint(s: string) {
    exists i :: 0 <= i < |ComplaintPhrases| && Contains(s, ComplaintPhrases[i])
  }

  /** Regular expression `\d{1,2}:\d{2}` found somewhere in `s`. */
  predicate HasClockTime(s: string) {
    exists i :: 0 <= i && i + 4 <= |s| && IsDigit(s[i]) && s[i + 1] == ':' && IsDigit(s[i + 2]) && IsDigit(s[i + 3])
  }

  /** Regular expression `\d{1,2}\s*(am|pm)` found somewhere in `s`. */
  predicate HasMeridiem(s: string) {
    exists i :: 0 <= i < |s| && IsDigit(s[i]) && MeridiemAhead(s[i + 1..])
  }

  predicate MeridiemAhead(t: string) {
    var u := LStrip(t);
    "am" <= u || "pm" <= u
  }

  /** Whether the phrase names a time of day as well as a date. */
  predicate HasTimeSpec(s: string) {
    || Contains(s, " at ")
    || HasClockTime(s)
    || HasMeridiem(s)
    || (Contains(s, "hour") && (Contains(s, "in") || Contains(s, "at") || Contains(s, "by")))
  }

  datatype Shortcut = Today | Tomorrow | Yesterday | NextWeek

  /** `s == word or s.startswith(word + " ")` */
  predicate IsWordOrLeads(s: string, word: string) {
    s == word || word + " " <= s
  }

  /** The named-day shortcut that applies, tried in the order of the source. */
  function MatchShortcut(s: string): (k: Option<Shortcut>)
  {
    if IsWordOrLeads(s, "today") then Some(Today)
    else if IsWordOrLeads(s, "tomorrow") then Some(Tomorrow)
    else if IsWordOrLeads(s, "yesterday") then Some(Yesterday)
    else if "next week" <= s then Some(NextWeek)
    else None
  }

  /** The day offset of today, tomorrow and yesterday. */
  function DayOffset(k: Shortcut): int
    requires k != NextWeek
  {
    if k == Today then 0 else if k == Tomorrow then 1 else -1
  }

  /** `7 - now.weekday()`, bumped to 7 when it is 0. */
  function DaysUntilNextMonday(now: DateTime): (n: int)
    ensures 1 <= n <= 7
    ensures Weekday(now.day + n) == 0
    ensures Weekday(now.day) == 0 ==> n == 7
  {
    var ahead := 7 - Weekday(now.day);
    if ahead == 0 then 7 else ahead
  }

  /** The `ahead == 0` correction above never fires: `weekday()` is below 7. */
  lemma NextMondayCorrectionIsDead(now: DateTime)
    ensures 7 - Weekday(now.day) != 0
  {
  }

  /** Positions inside the pattern `in\s+(\d+)\s+days?`. */
  datatype InDaysState =
    | KeywordI    // expecting the `i` of `in`
    | KeywordN    // expecting the `n` of `in`
    | FirstGap    // expecting the first whitespace after `in`
    | MoreGap     // inside the whitespace after `in`
    | Count       // inside the digits
    | SecondGap   // inside the whitespace after the digits
    | UnitA       // after `d`, expecting `a`
    | UnitY       // after `da`, expecting `y`

  /** Matches the rest of `in\s+(\d+)\s+days?` from index `i` of `t`, with the
      digits read so far worth `acc`; the optional `s` never changes the match. */
  function MatchInDays(t: string, i: nat, st: InDaysState, acc: nat): Option<nat>
    requires i <= |t|
    decreases |t| - i
  {
    if i == |t| then None
    else
      var c := t[i];
      match st
      case KeywordI => if c == 'i' then MatchInDays(t, i + 1, KeywordN, acc) else None
      case KeywordN => if c == 'n' then MatchInDays(t, i + 1, FirstGap, acc) else None
      case FirstGap => if IsSpace(c) then MatchInDays(t, i + 1, MoreGap, acc) else None
      case MoreGap =>
        if IsSpace(c) then MatchInDays(t, i + 1, MoreGap, acc)
        else if IsDigit(c) then MatchInDays(t, i + 1, Count, DigitOf(c))
        else None
      case Count =>
        if IsDigit(c) then MatchInDays(t, i + 1, Count, acc * 10 + DigitOf(c))
        else if IsSpace(c) then MatchInDays(t, i + 1, SecondGap, acc)
        else None
      case SecondGap =>
        if IsSpace(c) then MatchInDays(t, i + 1, SecondGap, acc)
        else if c == 'd' then MatchInDays(t, i + 1, UnitA, acc)
        else None
      case UnitA => if c == 'a' then MatchInDays(t, i + 1, UnitY, acc) else None
      case UnitY => if c == 'y' then Some(acc) else None
  }

  /** The match of `in\s+(\d+)\s+days?` starting at index `j` of `s`. */
  function InDaysAt(s: string, j: nat): Option<nat>
    requires j <= |s|
  {
    MatchInDays(s, j, KeywordI, 0)
  }

  /** The leftmost match of `in\s+(\d+)\s+days?` at or after index `i`. */
  function FindInDaysFrom(s: string, i: nat): Option<nat>
    requires i <= |s|
    decreases |s| - i
  {
    var here := InDaysAt(s, i);
    if here.Some? then here
    else if i == |s| then None
    else FindInDaysFrom(s, i + 1)
  }

  /** The day count of the first `in N day(s)` anywhere in `s`. */
  function FindInDays(s: string): Option<nat> {
    FindInDaysFrom(s, 0)
  }

  /** The search reports the leftmost match at or after `i`, and reports none only when there is none. */
  lemma {:induction false} FindInDaysFromLeftmost(s: string, i: nat)
    requires i <= |s|
    ensures FindInDaysFrom(s, i).Some? ==>
      exists j :: i <= j <= |s| && InDaysAt(s, j) == FindInDaysFrom(s, i)
        && forall k :: i <= k < j ==> InDaysAt(s, k).None?
    ensures FindInDaysFrom(s, i).None? ==> forall j :: i <= j <= |s| ==> InDaysAt(s, j).None?
    decreases |s| - i
  {
    var here := InDaysAt(s, i);
    if here.Some? {
      assert InDaysAt(s, i) == FindInDaysFrom(s, i);
    } else if i < |s| {
      FindInDaysFromLeftmost(s, i + 1);
    }
  }

  /** `FindInDays` finds the leftmost match in the whole of `s`, as `re.search` does. */
  lemma FindInDaysLeftmost(s: string)
    ensures FindInDays(s).Some? ==>
      exists j :: 0 <= j <= |s| && InDaysAt(s, j) == FindInDays(s)
        && forall k :: 0 <= k < j ==> InDaysAt(s, k).None?
    ensures FindInDays(s).None? ==> forall j :: 0 <= j <= |s| ==> InDaysAt(s, j).None?
  {
    FindInDaysFromLeftmost(s, 0);
  }

  /** Words after which the general parse is cut back to the start of the day. */
  predicate MentionsRelativeDay(s: string) {
    Contains(s, "today") || Contains(s, "tomorrow") || Contains(s, "yesterday")
    || (Contains(s, "day") && Contains(s, "in "))
  }

  /** The general parse tried after every rule above has passed: a strict
      parse, returned as it is, else a fuzzy parse held to 36500 days from
      now. An OverflowError of the strict parse escapes its handler; every
      failure of the fuzzy parse is turned into a ValueError. */
  function GeneralParse(text: string, s: string, now: DateTime, parse: DateParser): (r: Result<DateTime, DateError>)
    ensures parse(text, false, now).Parsed? ==> r.Success? && r.value.day == parse(text, false, now).at.day
    ensures r == Failure(OutOfRange) <==> parse(text, false, now).Overflow?
    ensures r.Success? && !parse(text, false, now).Parsed? ==>
      && parse(text, false, now).Rejected?
      && parse(text, true, now).Parsed?
      && r.value.day == parse(text, true, now).at.day
      && Abs(DeltaDays(parse(text, true, now).at, now)) <= FuzzyBoundDays
    // the fuzzy fallback after a strict rejection decides by its 36500-day bound
    ensures parse(text, false, now).Rejected? && parse(text, true, now).Parsed? ==>
      (r.Success? <==> Abs(DeltaDays(parse(text, true, now).at, now)) <= FuzzyBoundDays)
    ensures parse(text, false, now).Rejected? && parse(text, true, now).Parsed? ==>
      (Abs(DeltaDays(parse(text, true, now).at, now)) > FuzzyBoundDays ==> r == Failure(Implausible))
    ensures parse(text, false, now).Rejected? && !parse(text, true, now).Parsed? ==> r == Failure(Unparseable)
    ensures r.Success? && (HasTimeSpec(s) || !MentionsRelativeDay(s)) ==>
      r.value == (if parse(text, false, now).Parsed? then parse(text, false, now) else parse(text, true, now)).at
    ensures r.Success? && !HasTimeSpec(s) && MentionsRelativeDay(s) ==> r.value.secs == 0
    ensures r.Failure? ==> r.error == Unparseable || r.error == Implausible || r.error == OutOfRange
  {
    var cut := !HasTimeSpec(s) && MentionsRelativeDay(s);
    match parse(text, false, now)
    case Parsed(p) => Success(if cut then Midnight(p) else p)
    case Overflow => Failure(OutOfRange)
    case Rejected =>
      match parse(text, true, now)
      case Parsed(p) =>
        if Abs(DeltaDays(p, now)) > FuzzyBoundDays then Failure(Implausible)
        else Success(if cut then Midnight(p) else p)
      case _ => Failure(Unparseable)
  }

  /** `parse_relative_date(text)` with the clock reading `now`. */
  function ParseRelativeDate(text: string, now: DateTime, parse: DateParser): (r: Result<DateTime, DateError>)
    ensures text == "" ==> r == Failure(EmptyInput)
    ensures text != "" ==> r == Resolve(text, Normalize(text), now, parse)
  {
    if text == "" then Failure(EmptyInput) else Resolve(text, Normalize(text), now, parse)
  }

  /** A named day (`today`, `tomorrow`, `yesterday`, `next week`) resolved
      against `now`; the day is computed first, and raises OverflowError when
      it leaves the calendar. */
  function NamedDay(text: string, shortcut: Shortcut, timed: bool, now: DateTime, parse: DateParser): (r: Result<DateTime, DateError>)
    // today / tomorrow / yesterday past either end of the calendar
    ensures shortcut != NextWeek && AddDays(now, DayOffset(shortcut)).None? ==> r == Failure(OutOfRange)
    // ... with no time: midnight of that day
    ensures shortcut != NextWeek && AddDays(now, DayOffset(shortcut)).Some? && !timed ==>
      r.Success? && r.value.day == now.day + DayOffset(shortcut) && r.value.secs == 0
    // ... with a time: the parser's time of day on that day
    ensures shortcut != NextWeek && AddDays(now, DayOffset(shortcut)).Some? && timed ==>
      var p := parse(text, true, AddDays(now, DayOffset(shortcut)).value);
      && (r.Success? <==> p.Parsed?)
      && (p.Parsed? ==> r.value.day == now.day + DayOffset(shortcut) && r.value.secs == p.at.secs)
      && (p.Rejected? ==> r == Failure(Unparseable))
      && (p.Overflow? ==> r == Failure(OutOfRange))
    // next week: midnight of the next Monday, a full week ahead from a Monday
    ensures shortcut == NextWeek ==>
      && (r.Failure? <==> now.day + DaysUntilNextMonday(now) > MaxDay)
      && (r.Failure? ==> r.error == OutOfRange)
      && (r.Success? ==>
            && now.day + 1 <= r.value.day <= now.day + 7
            && Weekday(r.value.day) == 0
            && r.value.secs == 0
            && (Weekday(now.day) == 0 ==> r.value.day == now.day + 7))
    ensures r.Failure? ==> r.error == Unparseable || r.error == OutOfRange
  {
    if shortcut == NextWeek then
      match AddDays(now, DaysUntilNextMonday(now))
      case Some(d) => Success(Midnight(d))
      case None => Failure(OutOfRange)
    else
      match AddDays(now, DayOffset(shortcut))
      case None => Failure(OutOfRange)
      case Some(base) =>
        if timed then
          match parse(text, true, base)
          case Parsed(p) => Success(DateTime(base.day, p.secs))
          case Rejected => Failure(Unparseable)
          case Overflow => Failure(OutOfRange)
        else Success(Midnight(base))
  }

  /** The rules of `parse_relative_date` for a non-empty `text` whose
      lower-cased, trimmed form is `s`, in the order the source tries them. */
  function Resolve(text: string, s: string, now: DateTime, parse: DateParser): (r: Result<DateTime, DateError>)
    // complaints are rejected before any other rule, and only they are
    ensures r == Failure(NotADateStatement) <==> IsComplaint(s)
    ensures !IsComplaint(s) ==> r == ResolveDate(text, s, now, parse)
  {
    var complaint := IsComplaint(s);
    if complaint then Failure(NotADateStatement) else ResolveDate(text, s, now, parse)
  }

  /** The date rules, tried once `s` is known not to be a complaint. */
  function ResolveDate(text: string, s: string, now: DateTime, parse: DateParser): (r: Result<DateTime, DateError>)
    // a named day is resolved before anything else
    ensures MatchShortcut(s).Some? ==> r == NamedDay(text, MatchShortcut(s).value, HasTimeSpec(s), now, parse)
    // in N days, only when no named day matched, and only inside the calendar
    ensures MatchShortcut(s).None? && FindInDays(s).Some? && now.day + FindInDays(s).value <= MaxDay ==>
      r.Success? && r.value.day == now.day + FindInDays(s).value && r.value.secs == 0
    ensures MatchShortcut(s).None? && FindInDays(s).Some? && now.day + FindInDays(s).value > MaxDay ==>
      r == Failure(OutOfRange)
    // otherwise the general parse decides
    ensures MatchShortcut(s).None? && FindInDays(s).None? ==> r == GeneralParse(text, s, now, parse)
    ensures r.Failure? ==> r.error != NotADateStatement
  {
    var shortcut := MatchShortcut(s);
    if shortcut.Some? then NamedDay(text, shortcut.value, HasTimeSpec(s), now, parse)
    else
      var inDays := FindInDays(s);
      if inDays.Some? then
        match AddDays(now, inDays.value)
        case Some(d) => Success(Midnight(d))
        case None => Failure(OutOfRange)
      else GeneralParse(text, s, now, parse)
  }

  /** A parser that only succeeds fuzzily, landing exactly 36500 days before its default. */
  function FuzzyCentury(text: string, fuzzy: bool, default: DateTime): ParseOutcome {
    if !fuzzy then Rejected
    else match AddDays(default, -FuzzyBoundDays)
      case Some(d) => Parsed(d)
      case None => Overflow
  }

  /** A parser that succeeds strictly, 100000 days after its default. */
  function StrictFarFuture(text: string, fuzzy: bool, default: DateTime): ParseOutcome {
    if fuzzy then Rejected
    else match AddDays(default, 100000)
      case Some(d) => Parsed(d)
      case None => Overflow
  }

  /** The 36500-day check looks at the fuzzy parse before it is cut back to
      midnight, so an accepted result can lie 36501 whole days before now:
      whenever the cut applies and now is past midnight. */
  lemma FuzzyBoundHasOneDaySlack(text: string, s: string, now: DateTime)
    requires now.secs > 0 && now.day >= FuzzyBoundDays
    ensures var r := GeneralParse(text, s, now, FuzzyCentury);
      !HasTimeSpec(s) && MentionsRelativeDay(s) ==>
        r.Success? && DeltaDays(r.value, now) == -FuzzyBoundDays - 1
  {
    var p := AddDays(now, -FuzzyBoundDays).value;
    assert DeltaDays(p, now) == -FuzzyBoundDays;
    if !HasTimeSpec(s) && MentionsRelativeDay(s) {
      assert GeneralParse(text, s, now, FuzzyCentury) == Success(Midnight(p));
    }
  }

  /** A strict parse is returned however far from now it lands. */
  lemma StrictParseIsUnbounded(text: string, s: string, now: DateTime)
    requires !IsComplaint(s) && MatchShortcut(s).None? && FindInDays(s).None?
    requires now.day + 100000 <= MaxDay
    ensures Resolve(text, s, now, StrictFarFuture).Success?
    ensures DeltaDays(Resolve(text, s, now, StrictFarFuture).value, now) > FuzzyBoundDays
  {
    var p := AddDays(now, 100000).value;
    var r := Resolve(text, s, now, StrictFarFuture);
    assert r.value == p || r.value == Midnight(p);
  }
}

=== FILE: legacy_tools.dfy ===
/** The older task tools of `TodoAgent` (agent.py) and its reply selection.
    They differ from the newer tools: no title or alias validation, schedule
    parse failures are swallowed, an unknown priority means medium on update
    too, and `task_number` is a 1-based position in the task list that
    overrides an explicit id. */
module LegacyTools {

  import opened Wrappers
  import opened Clock
  import opened Models
  import opened RelativeDate
  import opened TaskStore
  import opened ToolArgs
  import opened Messages
  import TaskTools

  /** `date_parser.parse(text)` as these tools call it, with no options: a
      strict parse whose missing fields default to today at midnight. The
      bare `except: pass` around it turns every error, OverflowError
      included, into no schedule. */
  function PlainSchedule(env: Env, text: string): (r: Option<DateTime>)
    ensures r.Some? <==> env.parse(text, false, Midnight(env.now)).Parsed?
    ensures r.Some? ==> r.value == env.parse(text, false, Midnight(env.now)).at
  {
    match env.parse(text, false, Midnight(env.now))
    case Parsed(d) => Some(d)
    case _ => None
  }

  /** The raw category string as the task model validates it: only the four
      exact values are accepted, and anything else (the empty string too)
      makes the model raise. */
  function RawCategory(category: Option<string>): (r: Result<Option<Category>, Outcome>)
    ensures category.None? ==> r == Success(None)
    ensures category.Some? ==> (r.Success? <==> CategoryFromValue(category.value).Some?)
    ensures r.Success? && category.Some? ==> r.value.Some? && CategoryValue(r.value.value) == category.value
    ensures r.Failure? ==> r.error == Crashed
  {
    if category.None? then Success(None)
    else
      match CategoryFromValue(category.value)
      case None => Failure(Crashed)
      case Some(c) => Success(Some(c))
  }

  /** `create_task` of `TodoAgent`: the title is stored as given. */
  function LegacyCreate(db: Database, env: Env, title: string, priority: string,
                        scheduledTime: Option<string>, category: Option<string>): (r: (Database, Outcome))
    ensures RawCategory(category).Failure? ==> r == (db, Crashed)
    ensures !r.1.Created? ==> r.1 == Crashed
    ensures Valid(db) ==> Valid(r.0)
    ensures RawCategory(category).Success? ==>
      var base := TaskBase(title, if TextGiven(scheduledTime) then PlainSchedule(env, scheduledTime.value) else None,
                           PriorityAlias(priority).GetOr(Medium), RawCategory(category).value);
      && r.0 == CreateTask(db, base, env.now, env.codec).0
      && (Valid(db) && RoundTrips(env.codec) ==> r.1 == Created(WithIdentity(base, db.nextId, env.now)))
  {
    match RawCategory(category)
    case Failure(o) => (db, o)
    case Success(kind) =>
      var level := PriorityAlias(priority).GetOr(Medium);
      var when := if TextGiven(scheduledTime) then PlainSchedule(env, scheduledTime.value) else None;
      var (db2, created) := CreateTask(db, TaskBase(title, when, level, kind), env.now, env.codec);
      (db2, if created.Some? then Created(created.value) else Crashed)
  }

  /** The update `TodoAgent.update_task` builds, or the reply that stops it. */
  function LegacyFields(env: Env, newTitle: Option<string>, priority: Option<string>,
                        scheduledTime: Option<string>, category: Option<string>): (r: Result<TaskUpdate, Outcome>)
    ensures r.Success? ==> r.value.title == (if TextGiven(newTitle) then newTitle else None)
    ensures r.Success? ==> (r.value.priority.Some? <==> TextGiven(priority))
    ensures r.Success? && TextGiven(priority) ==> r.value.priority == Some(PriorityAlias(priority.value).GetOr(Medium))
    ensures r.Success? && TextGiven(scheduledTime) ==> r.value.scheduledTime == PlainSchedule(env, scheduledTime.value)
    ensures r.Success? && !TextGiven(scheduledTime) ==> r.value.scheduledTime.None?
    ensures r.Success? ==> (r.value.category.Some? <==> TextGiven(category))
    // a schedule that fails to parse counts as no field at all
    ensures r == Failure(NoFields) <==>
      && !TextGiven(newTitle) && !TextGiven(priority) && !TextGiven(category)
      && (TextGiven(scheduledTime) ==> PlainSchedule(env, scheduledTime.value).None?)
    ensures r.Failure? ==> r.error == NoFields || r.error == Crashed
  {
    var title := if TextGiven(newTitle) then newTitle else None;
    var level := if TextGiven(priority) then Some(PriorityAlias(priority.value).GetOr(Medium)) else None;
    var when := if TextGiven(scheduledTime) then PlainSchedule(env, scheduledTime.value) else None;
    if title.None? && level.None? && when.None? && !TextGiven(category) then Failure(NoFields)
    else if TextGiven(category) && CategoryFromValue(category.value).None? then Failure(Crashed)
    else
      var kind := if TextGiven(category) then CategoryFromValue(category.value) else None;
      Success(TaskUpdate(title, when, level, kind))
  }

  /** `update_task` of `TodoAgent`: no existence check before the update; a
      missing task is reported from the store's answer. */
  function LegacyUpdate(db: Database, env: Env, taskId: Option<int>, taskTitle: Option<string>,
                        newTitle: Option<string>, priority: Option<string>,
                        scheduledTime: Option<string>, category: Option<string>): (r: (Database, Outcome))
    ensures Valid(db) && RoundTrips(env.codec) && !r.1.Updated? ==> r.0 == db
    ensures ResolveTarget(db, env, taskId, taskTitle).Failure? ==>
      r == (db, ResolveTarget(db, env, taskId, taskTitle).error)
    ensures ResolveTarget(db, env, taskId, taskTitle).Success? ==>
      var id := ResolveTarget(db, env, taskId, taskTitle).value;
      var fields := LegacyFields(env, newTitle, priority, scheduledTime, category);
      && (fields.Failure? ==> r == (db, fields.error))
      && (fields.Success? && GetTask(db, id, env.codec).None? ==> r == (db, NotFound(id)))
      && (r.1.Updated? ==> r.1.id == id && r.0 == UpdateTask(db, id, fields.value, env.codec).0)
      // the store's update, once run, stands even when its read-back fails
      && (fields.Success? ==>
            && r.0 == UpdateTask(db, id, fields.value, env.codec).0
            && (r.1.Updated? || r.1 == NotFound(id)))
      // an existing task with accepted fields is updated
      && (fields.Success? && GetTask(db, id, env.codec).Some? && Valid(db) && RoundTrips(env.codec) ==>
            r == (UpdateTask(db, id, fields.value, env.codec).0,
                  Updated(id, Merge(GetTask(db, id, env.codec).value, fields.value).title)))
    ensures Valid(db) ==> Valid(r.0)
  {
    match ResolveTarget(db, env, taskId, taskTitle)
    case Failure(o) => (db, o)
    case Success(id) =>
      match LegacyFields(env, newTitle, priority, scheduledTime, category)
      case Failure(o) => (db, o)
      case Success(u) =>
        var (db2, updated) := UpdateTask(db, id, u, env.codec);
        if updated.Some? then (db2, Updated(id, updated.value.title)) else (db2, NotFound(id))
  }

  /** The id `TodoAgent.delete_task` starts from: a given `task_number` is a
      1-based position in the full task list (newest first) and replaces any
      explicit id; a position outside the list stops the call. */
  function PositionTarget(db: Database, env: Env, taskId: Option<int>, taskNumber: Option<int>): (r: Result<Option<int>, Outcome>)
    ensures !IntGiven(taskNumber) ==> r == Success(taskId)
    ensures IntGiven(taskNumber) ==>
      var tasks := GetAllTasks(db, None, env.codec);
      && (r.Success? <==> 1 <= taskNumber.value <= |tasks|)
      && (r.Success? ==> r.value == Some(tasks[taskNumber.value - 1].id))
      && (r.Failure? ==> r.error == NumberNotFound(taskNumber.value))
  {
    PositionIn(GetAllTasks(db, None, env.codec), taskId, taskNumber)
  }

  /** PositionTarget over a given newest-first list. */
  function PositionIn(tasks: seq<Task>, taskId: Option<int>, taskNumber: Option<int>): (r: Result<Option<int>, Outcome>)
    ensures !IntGiven(taskNumber) ==> r == Success(taskId)
    ensures IntGiven(taskNumber) ==>
      && (r.Success? <==> 1 <= taskNumber.value <= |tasks|)
      && (r.Success? ==> r.value == Some(tasks[taskNumber.value - 1].id))
      && (r.Failure? ==> r.error == NumberNotFound(taskNumber.value))
  {
    if IntGiven(taskNumber) then
      var n := taskNumber.value;
      if 1 <= n <= |tasks| then Success(Some(tasks[n - 1].id)) else Failure(NumberNotFound(n))
    else Success(taskId)
  }

  /** `delete_task` of `TodoAgent`. */
  function LegacyDelete(db: Database, env: Env, taskId: Option<int>, taskTitle: Option<string>,
                        taskNumber: Option<int>): (r: (Database, Outcome))
    ensures !r.1.Deleted? ==> r.0 == db
    ensures PositionTarget(db, env, taskId, taskNumber).Failure? ==>
      r == (db, PositionTarget(db, env, taskId, taskNumber).error)
    ensures PositionTarget(db, env, taskId, taskNumber).Success? ==>
      var target := ResolveTarget(db, env, PositionTarget(db, env, taskId, taskNumber).value, taskTitle);
      && (target.Failure? ==> r == (db, target.error))
      && (target.Success? && GetTask(db, target.value, env.codec).None? ==> r == (db, NotFound(target.value)))
      && (target.Success? && GetTask(db, target.value, env.codec).Some? ==>
            && r.1 == Deleted(target.value, GetTask(db, target.value, env.codec).value.title)
            && r.0 == DeleteTask(db, target.value, env.codec).0
            && GetTask(r.0, target.value, env.codec).None?
            && forall other :: other != target.value ==> GetTask(r.0, other, env.codec) == GetTask(db, other, env.codec))
    ensures Valid(db) ==> Valid(r.0)
  {
    match PositionTarget(db, env, taskId, taskNumber)
    case Failure(o) => (db, o)
    case Success(start) =>
      match ResolveTarget(db, env, start, taskTitle)
      case Failure(o) => (db, o)
      case Success(id) =>
        match GetTask(db, id, env.codec)
        case None => (db, NotFound(id))
        case Some(task) =>
          var db2 := DeleteTask(db, id, env.codec).0;
          assert forall other :: other != id ==> GetTask(db2, other, env.codec) == GetTask(db, other, env.codec) by {
            forall other | other != id ensures GetTask(db2, other, env.codec) == GetTask(db, other, env.codec) {
              DeleteLeavesOthers(db, id, other, env.codec);
            }
          }
          (db2, Deleted(id, task.title))
  }

  /** A position in range picks the listed task even when an explicit id
      names another one; the newer tool would use the explicit id. */
  lemma PositionOverridesId(db: Database, env: Env, taskId: int, n: int)
    requires taskId != 0
    requires 1 <= n <= |GetAllTasks(db, None, env.codec)|
    requires GetAllTasks(db, None, env.codec)[n - 1].id != 0
    ensures ResolveTarget(db, env, PositionTarget(db, env, Some(taskId), Some(n)).value, None)
      == Success(GetAllTasks(db, None, env.codec)[n - 1].id)
    ensures ResolveTarget(db, env, TaskTools.DeleteStartId(Some(taskId), Some(n)), None) == Success(taskId)
  {
    assert ResolveTarget(db, env, TaskTools.DeleteStartId(Some(taskId), Some(n)), None) == Success(taskId) by {
      assert TaskTools.DeleteStartId(Some(taskId), Some(n)) == Some(taskId);
    }
    var tasks := GetAllTasks(db, None, env.codec);
    var listed := tasks[n - 1].id;
    assert PositionTarget(db, env, Some(taskId), Some(n)) == Success(Some(listed)) by {
      assert PositionTarget(db, env, Some(taskId), Some(n)) == PositionIn(tasks, Some(taskId), Some(n));
    }
    assert ResolveTarget(db, env, Some(listed), None) == Success(listed);
  }

  /** `process_command`'s reply: the last AI message with non-empty content;
      else the last message's content; else a fixed reply. */
  function CommandReply(messages: seq<Message>): (reply: string)
    ensures reply != ""
    ensures (exists i :: 0 <= i < |messages| && messages[i].role == AI && messages[i].content != "") ==>
      exists i :: 0 <= i < |messages| && messages[i].role == AI && messages[i].content == reply
        && forall j :: i < j < |messages| ==> !(messages[j].role == AI && messages[j].content != "")
    ensures (forall i :: 0 <= i < |messages| ==> !(messages[i].role == AI && messages[i].content != "")) ==>
      reply == (if |messages| > 0 && messages[|messages| - 1].content != ""
                then messages[|messages| - 1].content else NoResponse)
  {
    match LastAiReply(messages)
    case Some(i) => messages[i].content
    case None =>
      if |messages| > 0 && messages[|messages| - 1].content != "" then messages[|messages| - 1].content
      else NoResponse
  }

  /** The fixed reply when the agent produced nothing to show. */
  const NoResponse := "No response generated."

  /** The index of the last AI message with non-empty content, scanning backwards. */
  function LastAiReply(messages: seq<Message>): (r: Option<nat>)
    ensures r.Some? ==> r.value < |messages| && messages[r.value].role == AI && messages[r.value].content != ""
    ensures r.Some? ==> forall j :: r.value < j < |messages| ==> !(messages[j].role == AI && messages[j].content != "")
    ensures r.None? ==> forall i :: 0 <= i < |messages| ==> !(messages[i].role == AI && messages[i].content != "")
    decreases |messages|
  {
    if |messages| == 0 then None
    else
      var last := messages[|messages| - 1];
      if last.role == AI && last.content != "" then Some(|messages| - 1)
      else LastAiReply(messages[..|messages| - 1])
  }
}

=== FILE: map_links.dfy ===
/** Google Maps links for the places of a travel answer: the search query
    built for a place, and the map and embed URLs built from geocoded
    coordinates or, when nothing geocodes, from the queries themselves. The
    geocoding service, URL quoting and the averaging of coordinates are
    parameters; coordinates are kept as the text Python prints for them. */
module MapLinks {

  import opened Wrappers
  import opened Text

  /** A place the extractor found: its name and optional country, type and free-text context. */
  datatype Place = Place(name: string, country: Option<string>, kind: Option<string>, context: Option<string>)

  /** An argument of the URL builders: a bare string or a `Place`. */
  datatype PlaceArg = Named(text: string) | Found(place: Place)

  /** A latitude and longitude as Python formats them. */
  datatype Coord = Coord(lat: string, lng: string)

  /** The API key and the collaborators the builders call: the geocoding
      request, `urllib.parse.quote`, and the formatted centre of a list of
      coordinates. */
  datatype MapsConfig = MapsConfig(
    apiKey: string,
    lookup: string -> Option<Coord>,
    quote: string -> string,
    center: seq<Coord> -> string)

  /** Contexts this long or longer are left out of a query. */
  const ContextLimit := 50

  predicate Truthy(o: Option<string>) {
    o.Some? && o.value != ""
  }

  /** Whether a place's context is added to its query: trimmed, shorter than
      the limit, and not already contained in the name, ignoring case. */
  predicate UsesContext(p: Place) {
    Truthy(p.context)
    && var c := Strip(p.context.value);
       |c| < ContextLimit && !Contains(Lower(p.name), Lower(c))
  }

  /** `_build_search_query`: a string as it is; for a place, its name, then
      its country when set, then its trimmed context when useful, joined by
      a comma and a space. The place's type never matters. */
  function SearchQuery(arg: PlaceArg): (q: string)
    ensures arg.Named? ==> q == arg.text
    ensures arg.Found? ==> arg.place.name <= q
    ensures arg.Found? && !Truthy(arg.place.country) && !UsesContext(arg.place) ==> q == arg.place.name
    ensures arg.Found? && Truthy(arg.place.country) && !UsesContext(arg.place) ==>
      q == arg.place.name + ", " + arg.place.country.value
    ensures arg.Found? && !Truthy(arg.place.country) && UsesContext(arg.place) ==>
      q == arg.place.name + ", " + Strip(arg.place.context.value)
    ensures arg.Found? && Truthy(arg.place.country) && UsesContext(arg.place) ==>
      q == arg.place.name + ", " + arg.place.country.value + ", " + Strip(arg.place.context.value)
  {
    match arg
    case Named(text) => text
    case Found(p) =>
      var parts := [p.name]
        + (if Truthy(p.country) then [p.country.value] else [])
        + (if UsesContext(p) then [Strip(p.context.value)] else []);
      JoinFacts(parts, ", ");
      Join(parts, ", ")
  }

  /** `Join` on one, two and three parts. */
  lemma JoinFacts(parts: seq<string>, sep: string)
    ensures |parts| == 1 ==> Join(parts, sep) == parts[0]
    ensures |parts| == 2 ==> Join(parts, sep) == parts[0] + sep + parts[1]
    ensures |parts| == 3 ==> Join(parts, sep) == parts[0] + sep + parts[1] + sep + parts[2]
  {
    if |parts| == 2 {
      assert Join(parts[1..], sep) == parts[1];
    } else if |parts| == 3 {
      assert parts[1..][1..] == parts[2..];
      assert Join(parts[2..], sep) == parts[2];
    }
  }

  /** An empty context can never be added: it is contained in every name. */
  lemma BlankContextNeverAdded(p: Place)
    requires p.context.Some? && Strip(p.context.value) == ""
    ensures !UsesContext(p)
  {
    assert OccursAt(Lower(p.name), Lower(""), 0);
  }

  /** The text Python prints for a place that geocoded: its name, or the string itself. */
  function DisplayName(arg: PlaceArg): string {
    match arg
    case Named(text) => text
    case Found(p) => p.name
  }

  /** `geocode_city`: nothing without an API key, else the service's answer for the query. */
  function Geocode(cfg: MapsConfig, arg: PlaceArg): (r: Option<Coord>)
    ensures cfg.apiKey == "" ==> r.None?
    ensures cfg.apiKey != "" ==> r == cfg.lookup(SearchQuery(arg))
  {
    if cfg.apiKey == "" then None else cfg.lookup(SearchQuery(arg))
  }

  /** The places that geocoded, in order, with their names and coordinates. */
  function Located(cfg: MapsConfig, places: seq<PlaceArg>): (r: seq<(string, Coord)>)
    ensures |r| <= |places|
    ensures cfg.apiKey == "" ==> r == []
    ensures r == [] <==> forall i :: 0 <= i < |places| ==> Geocode(cfg, places[i]).None?
  {
    if |places| == 0 then []
    else
      var rest := Located(cfg, places[1..]);
      assert forall i :: 1 <= i < |places| ==> places[i] == places[1..][i - 1];
      Spot(cfg, places[0]) + rest
  }

  /** The entry of one place: its name and coordinates when it geocodes, else nothing. */
  function Spot(cfg: MapsConfig, place: PlaceArg): (r: seq<(string, Coord)>)
    ensures |r| <= 1
    ensures r == [] <==> Geocode(cfg, place).None?
    ensures r != [] ==> r[0] == (DisplayName(place), Geocode(cfg, place).value)
  {
    match Geocode(cfg, place)
    case Some(c) => [(DisplayName(place), c)]
    case None => []
  }

  /** `e` is the name and coordinates of one of the places that geocode. */
  predicate LocatedFrom(cfg: MapsConfig, places: seq<PlaceArg>, e: (string, Coord)) {
    exists i :: 0 <= i < |places| && Geocode(cfg, places[i]) == Some(e.1) && e.0 == DisplayName(places[i])
  }

  /** Every entry is the name and coordinates of one of the places. */
  lemma {:induction false} LocatedEntriesArePlaces(cfg: MapsConfig, places: seq<PlaceArg>)
    ensures forall k :: 0 <= k < |Located(cfg, places)| ==> LocatedFrom(cfg, places, Located(cfg, places)[k])
  {
    forall k | 0 <= k < |Located(cfg, places)|
      ensures LocatedFrom(cfg, places, Located(cfg, places)[k])
    {
      LocatedEntryIsPlace(cfg, places, k);
    }
  }

  lemma {:induction false} LocatedEntryIsPlace(cfg: MapsConfig, places: seq<PlaceArg>, k: nat)
    requires k < |Located(cfg, places)|
    ensures LocatedFrom(cfg, places, Located(cfg, places)[k])
  {
    var head := Spot(cfg, places[0]);
    var rest := Located(cfg, places[1..]);
    var e := Located(cfg, places)[k];
    assert Located(cfg, places) == head + rest;
    if k < |head| {
      assert e == head[0];
      LocatedFromAt(cfg, places, 0, e);
    } else {
      assert e == rest[k - |head|];
      LocatedEntryIsPlace(cfg, places[1..], k - |head|);
      LocatedFromTail(cfg, places, e);
    }
  }

  /** Every place that geocodes appears, with its name and coordinates. */
  lemma {:induction false} LocatedListsEveryPlace(cfg: MapsConfig, places: seq<PlaceArg>)
    ensures forall i :: 0 <= i < |places| && Geocode(cfg, places[i]).Some? ==>
      (DisplayName(places[i]), Geocode(cfg, places[i]).value) in Located(cfg, places)
  {
    forall i | 0 <= i < |places| && Geocode(cfg, places[i]).Some?
      ensures (DisplayName(places[i]), Geocode(cfg, places[i]).value) in Located(cfg, places)
    {
      PlaceIsLocated(cfg, places, i);
    }
  }

  lemma {:induction false} PlaceIsLocated(cfg: MapsConfig, places: seq<PlaceArg>, i: nat)
    requires i < |places| && Geocode(cfg, places[i]).Some?
    ensures (DisplayName(places[i]), Geocode(cfg, places[i]).value) in Located(cfg, places)
  {
    var head := Spot(cfg, places[0]);
    var rest := Located(cfg, places[1..]);
    assert Located(cfg, places) == head + rest;
    if i == 0 {
      assert head[0] == (DisplayName(places[0]), Geocode(cfg, places[0]).value);
    } else {
      assert places[1..][i - 1] == places[i];
      PlaceIsLocated(cfg, places[1..], i - 1);
    }
  }

  lemma LocatedFromAt(cfg: MapsConfig, places: seq<PlaceArg>, i: nat, e: (string, Coord))
    requires i < |places| && Geocode(cfg, places[i]) == Some(e.1) && e.0 == DisplayName(places[i])
    ensures LocatedFrom(cfg, places, e)
  {
  }

  lemma LocatedFromTail(cfg: MapsConfig, places: seq<PlaceArg>, e: (string, Coord))
    requires |places| > 0 && LocatedFrom(cfg, places[1..], e)
    ensures LocatedFrom(cfg, places, e)
  {
    var j :| 0 <= j < |places[1..]| && Geocode(cfg, places[1..][j]) == Some(e.1) && e.0 == DisplayName(places[1..][j]);
    assert places[1..][j] == places[j + 1];
  }

  /** Located keeps list order: the places of `a + b` that geocode are those
      of `a` followed by those of `b`. */
  lemma {:induction false} LocatedAppend(cfg: MapsConfig, a: seq<PlaceArg>, b: seq<PlaceArg>)
    ensures Located(cfg, a + b) == Located(cfg, a) + Located(cfg, b)
  {
    if |a| == 0 {
      assert a + b == b;
    } else {
      assert (a + b)[0] == a[0];
      assert (a + b)[1..] == a[1..] + b;
      LocatedAppend(cfg, a[1..], b);
      calc {
        Located(cfg, a + b);
        Spot(cfg, a[0]) + Located(cfg, a[1..] + b);
        Spot(cfg, a[0]) + (Located(cfg, a[1..]) + Located(cfg, b));
        (Spot(cfg, a[0]) + Located(cfg, a[1..])) + Located(cfg, b);
      }
    }
  }

  /** `"|".join` of the quoted queries of `places`. */
  function QuotedQueries(cfg: MapsConfig, places: seq<PlaceArg>): string {
    Join(seq(|places|, i requires 0 <= i < |places| => cfg.quote(SearchQuery(places[i]))), "|")
  }

  /** `f"{lat},{lng}"` */
  function Point(c: Coord): string {
    c.lat + "," + c.lng
  }

  function Points(located: seq<(string, Coord)>): seq<string>
    ensures |Points(located)| == |located|
  {
    seq(|located|, i requires 0 <= i < |located| => Point(located[i].1))
  }

  const MapsHome := "https://www.google.com/maps"
  const SearchPrefix := "https://www.google.com/maps/search/?api=1&query="
  const DirectionsPrefix := "https://www.google.com/maps/dir/"
  const EmbedPrefix := "https://www.google.com/maps/embed/v1/"

  /** The embed link of `get_map_urls`' fallback and of the source's
      unreachable "embed without coordinates" branch: directions through
      the places for two or more, a place search for one. */
  function EmbedByName(cfg: MapsConfig, places: seq<PlaceArg>): (r: Option<string>)
    ensures |places| == 0 <==> r.None?
  {
    if |places| >= 2 then
      var origin := cfg.quote(SearchQuery(places[0]));
      var destination := cfg.quote(SearchQuery(places[|places| - 1]));
      var waypoints := if |places| > 2 then QuotedQueries(cfg, places[1..|places| - 1]) else "";
      var base := EmbedPrefix + "directions?key=" + cfg.apiKey + "&origin=" + origin + "&destination=" + destination;
      Some(if waypoints != "" then base + "&waypoints=" + waypoints else base)
    else if |places| == 1 then
      Some(EmbedPrefix + "place?key=" + cfg.apiKey + "&q=" + cfg.quote(SearchQuery(places[0])))
    else None
  }

  /** The plain link for geocoded places: a search for a single point,
      else directions from the first point through the middle ones to the last. */
  function CoordinateLink(points: seq<string>): (r: string)
    requires |points| > 0
    ensures |points| == 1 ==> r == SearchPrefix + points[0]
    ensures |points| >= 2 ==> DirectionsPrefix + points[0] + "/" <= r
    ensures |points| >= 2 ==> EndsWith(r, "/" + points[|points| - 1])
    ensures |points| == 2 ==> r == DirectionsPrefix + points[0] + "/" + points[1]
    // three or more: the middle points as waypoints, joined by "|"
    ensures |points| > 2 ==>
      r == DirectionsPrefix + points[0] + "/" + Join(points[1..|points| - 1], "|") + "/" + points[|points| - 1]
  {
    if |points| == 1 then SearchPrefix + points[0]
    else
      var start := points[0];
      var end := points[|points| - 1];
      var middle := if |points| > 2 then points[1..|points| - 1] else [];
      var r := if middle != [] then DirectionsPrefix + start + "/" + Join(middle, "|") + "/" + end
               else DirectionsPrefix + start + "/" + end;
      assert r == (DirectionsPrefix + start + "/") + r[|DirectionsPrefix + start + "/"|..];
      assert r[|r| - |"/" + end|..] == "/" + end;
      r
  }

  /** The embed link for geocoded places: a view centred on them with a marker at each. */
  function EmbedView(cfg: MapsConfig, located: seq<(string, Coord)>): (r: string)
    ensures EmbedPrefix + "view?key=" + cfg.apiKey + "&center=" <= r
    ensures EndsWith(r, "&zoom=6&markers=" + Join(Points(located), "|"))
  {
    var coords := seq(|located|, i requires 0 <= i < |located| => located[i].1);
    var head := EmbedPrefix + "view?key=" + cfg.apiKey + "&center=";
    var tail := "&zoom=6&markers=" + Join(Points(located), "|");
    var r := head + cfg.center(coords) + tail;
    assert r[..|head|] == head;
    assert r[|r| - |tail|..] == tail;
    r
  }

  /** `generate_google_maps_url`; None stands for the source's `return None`. */
  function MapsUrl(cfg: MapsConfig, places: seq<PlaceArg>, useEmbed: bool): (r: Option<string>)
    ensures |places| == 0 ==> r == Some(MapsHome)
    // nothing geocoded: the links are built from the queries, whatever `useEmbed` says
    ensures |places| == 1 && Located(cfg, places) == [] ==>
      r == Some(SearchPrefix + cfg.quote(SearchQuery(places[0])))
    ensures |places| > 1 && Located(cfg, places) == [] ==>
      r == Some(DirectionsPrefix + QuotedQueries(cfg, places))
    // the source's `return None` and its embed-by-name branch are never reached
    ensures r.Some? && r.value != ""
    ensures Located(cfg, places) != [] && !useEmbed ==> r == Some(CoordinateLink(Points(Located(cfg, places))))
    ensures Located(cfg, places) != [] && useEmbed ==> r == Some(EmbedView(cfg, Located(cfg, places)))
  {
    if |places| == 0 then Some(MapsHome)
    else
      var located := Located(cfg, places);
      if |located| == 0 then
        if |places| == 1 then Some(SearchPrefix + cfg.quote(SearchQuery(places[0])))
        else Some(DirectionsPrefix + QuotedQueries(cfg, places))
      else if useEmbed then
        if cfg.apiKey == "" then None
        else Some(EmbedView(cfg, located))
      else Some(CoordinateLink(Points(located)))
  }

  predicate EndsWith(s: string, suffix: string) {
    |suffix| <= |s| && s[|s| - |suffix|..] == suffix
  }

  /** Without an API key nothing geocodes, so both links are the ones built
      from the queries and the embed link is the plain one. */
  lemma NoKeyLinksAgree(cfg: MapsConfig, places: seq<PlaceArg>)
    requires cfg.apiKey == ""
    ensures MapUrls(cfg, places).0 == MapUrls(cfg, places).1
    ensures |places| == 1 ==> MapUrls(cfg, places).1 == SearchPrefix + cfg.quote(SearchQuery(places[0]))
    ensures |places| > 1 ==> MapUrls(cfg, places).1 == DirectionsPrefix + QuotedQueries(cfg, places)
  {
  }

  /** `get_map_urls`: the embed link and the plain link; a missing embed
      link is replaced by a fallback when there is a key, and by "" otherwise. */
  function MapUrls(cfg: MapsConfig, places: seq<PlaceArg>): (r: (string, string))
    ensures Some(r.0) == MapsUrl(cfg, places, true)
    ensures Some(r.1) == MapsUrl(cfg, places, false)
    ensures r.0 != "" && r.1 != ""
  {
    var embed := MapsUrl(cfg, places, true);
    var plain := MapsUrl(cfg, places, false);
    var fixed := if (embed.None? || embed.value == "") && cfg.apiKey != "" then
                   (match EmbedByName(cfg, places) case Some(u) => Some(u) case None => embed)
                 else embed;
    (fixed.GetOr(""), plain.GetOr(""))
  }
}

=== FILE: messages.dfy ===
/** The chat messages the LangGraph examples pass around. */
module Messages {

  /** The message classes: `SystemMessage`, `HumanMessage`, `AIMessage` and `ToolMessage`. */
  datatype Role = System | Human | AI | Tool

  /** A tool call an AI message asks for. */
  datatype ToolCall = ToolCall(name: string, args: string, id: string)

  /** A message: its class, its text, and the tool calls it carries (only AI messages carry any). */
  datatype Message = Message(role: Role, content: string, toolCalls: seq<ToolCall>)
}

=== FILE: models.dfy ===
/** The task records of the voice todo app: priorities, categories, a task
    as created, a partial update, and a stored task. */
module Models {

  import opened Wrappers
  import opened Clock

  datatype Priority = Low | Medium | High

  datatype Category = Work | Personal | Administrative | Shopping

  /** The enum's string value (`Priority.X.value`). */
  function PriorityValue(p: Priority): (v: string)
    ensures PriorityFromValue(v) == Some(p)
  {
    match p
    case Low => "low"
    case Medium => "medium"
    case High => "high"
  }

  /** `Priority(v)`: None where the enum raises, i.e. for anything but the
      three exact lower-case values. */
  function PriorityFromValue(v: string): (r: Option<Priority>)
    ensures r.Some? <==> v == "low" || v == "medium" || v == "high"
  {
    if v == "low" then Some(Low)
    else if v == "medium" then Some(Medium)
    else if v == "high" then Some(High)
    else None
  }

  function CategoryValue(c: Category): (v: string)
    ensures CategoryFromValue(v) == Some(c)
    ensures v != ""
  {
    match c
    case Work => "work"
    case Personal => "personal"
    case Administrative => "administrative"
    case Shopping => "shopping"
  }

  /** `Category(v)`: only the four exact values are accepted. */
  function CategoryFromValue(v: string): (r: Option<Category>)
    ensures r.Some? <==> v == "work" || v == "personal" || v == "administrative" || v == "shopping"
  {
    if v == "work" then Some(Work)
    else if v == "personal" then Some(Personal)
    else if v == "administrative" then Some(Administrative)
    else if v == "shopping" then Some(Shopping)
    else None
  }

  /** `TaskBase` (and `TaskCreate`, which adds nothing). */
  datatype TaskBase = TaskBase(
    title: string,
    scheduledTime: Option<DateTime>,
    priority: Priority,
    category: Option<Category>)

  /** A task built from a title alone takes the declared defaults. */
  function NewTask(title: string): (t: TaskBase)
    ensures t.title == title
    ensures t.priority == Medium && t.scheduledTime.None? && t.category.None?
  {
    TaskBase(title, None, Medium, None)
  }

  /** `TaskUpdate`: every field optional, None meaning "leave as it is". */
  datatype TaskUpdate = TaskUpdate(
    title: Option<string>,
    scheduledTime: Option<DateTime>,
    priority: Option<Priority>,
    category: Option<Category>)

  /** `TaskUpdate()` with no arguments. */
  function NoChange(): (u: TaskUpdate)
    ensures u.title.None? && u.scheduledTime.None? && u.priority.None? && u.category.None?
  {
    TaskUpdate(None, None, None, None)
  }

  /** `Task`: the fields of `TaskBase` plus an id and a creation time. */
  datatype Task = Task(
    id: int,
    title: string,
    scheduledTime: Option<DateTime>,
    priority: Priority,
    category: Option<Category>,
    createdAt: DateTime)
  {
    function Base(): TaskBase {
      TaskBase(title, scheduledTime, priority, category)
    }
  }

  /** The stored task for `base` under a given id and creation time. */
  function WithIdentity(base: TaskBase, id: int, createdAt: DateTime): (t: Task)
    ensures t.Base() == base
    ensures t.id == id && t.createdAt == createdAt
  {
    Task(id, base.title, base.scheduledTime, base.priority, base.category, createdAt)
  }
}

=== FILE: numeric.dfy ===
/** Decimal integers as text: Python's `str(n)` for an `int` and Python's
    `int(text)` for base-10 text (surrounding whitespace, an optional sign,
    and single underscores between digits are accepted). */
module Numeric {

  import opened Wrappers
  import opened Text

  function DigitChar(d: nat): (c: char)
    requires d < 10
    ensures IsDigit(c)
  {
    (('0' as int) + d) as char
  }

  function DigitOf(c: char): (d: nat)
    requires IsDigit(c)
    ensures d < 10 && DigitChar(d) == c
  {
    (c as int) - ('0' as int)
  }

  predicate AllDigits(s: string) {
    forall i :: 0 <= i < |s| ==> IsDigit(s[i])
  }

  /** Decimal digits of `n`, most significant first, without leading zeros. */
  function NatToDigits(n: nat): (r: string)
    ensures |r| > 0 && AllDigits(r)
    ensures |r| > 1 ==> r[0] != '0'
  {
    if n < 10 then [DigitChar(n)] else NatToDigits(n / 10) + [DigitChar(n % 10)]
  }

  /** Python's `str(n)` for an integer. */
  function IntToString(n: int): (r: string)
    ensures |r| > 0 && IsDigit(r[|r| - 1])
    ensures r[0] == '-' <==> n < 0
    ensures r[0] != '-' ==> IsDigit(r[0])
  {
    if n < 0 then "-" + NatToDigits(-n) else NatToDigits(n)
  }

  /** The value of the digit string `t` read after an accumulated `acc`. */
  function FoldDigits(acc: nat, t: string): nat
    requires AllDigits(t)
    decreases |t|
  {
    if |t| == 0 then acc else FoldDigits(acc * 10 + DigitOf(t[0]), t[1..])
  }

  /** The positions of Python's `int()` scanner. */
  datatype ScanState =
    | Leading     // before the number, skipping whitespace
    | Signed      // just after '+' or '-'
    | InDigits    // just after a digit
    | Underscore  // just after an underscore, which must be followed by a digit
    | Trailing    // after the number, skipping whitespace

  function WithSign(negative: bool, v: nat): int {
    if negative then -(v as int) else v
  }

  /** Scans `s` from index `i`: the sign and the value read so far are `negative` and `acc`. */
  function Scan(s: string, i: nat, st: ScanState, negative: bool, acc: nat): Option<int>
    requires i <= |s|
    decreases |s| - i
  {
    if i == |s| then
      if st == InDigits || st == Trailing then Some(WithSign(negative, acc)) else None
    else
      var c := s[i];
      match st
      case Leading =>
        if IsSpace(c) then Scan(s, i + 1, Leading, negative, acc)
        else if c == '+' then Scan(s, i + 1, Signed, false, 0)
        else if c == '-' then Scan(s, i + 1, Signed, true, 0)
        else if IsDigit(c) then Scan(s, i + 1, InDigits, false, DigitOf(c))
        else None
      case Signed =>
        if IsDigit(c) then Scan(s, i + 1, InDigits, negative, DigitOf(c)) else None
      case InDigits =>
        if IsDigit(c) then Scan(s, i + 1, InDigits, negative, acc * 10 + DigitOf(c))
        else if c == '_' then Scan(s, i + 1, Underscore, negative, acc)
        else if IsSpace(c) then Scan(s, i + 1, Trailing, negative, acc)
        else None
      case Underscore =>
        if IsDigit(c) then Scan(s, i + 1, InDigits, negative, acc * 10 + DigitOf(c)) else None
      case Trailing =>
        if IsSpace(c) then Scan(s, i + 1, Trailing, negative, acc) else None
  }

  /** Python's `int(text)` in base 10; None where Python raises ValueError. */
  function ParsePyInt(text: string): Option<int> {
    Scan(text, 0, Leading, false, 0)
  }

  /** Appending a digit multiplies the value read so far by ten and adds it. */
  lemma {:induction false} FoldDigitsSnoc(acc: nat, t: string, c: char)
    requires AllDigits(t) && IsDigit(c)
    ensures AllDigits(t + [c])
    ensures FoldDigits(acc, t + [c]) == FoldDigits(acc, t) * 10 + DigitOf(c)
    decreases |t|
  {
    if |t| > 0 {
      FoldDigitsSnoc(acc * 10 + DigitOf(t[0]), t[1..], c);
      assert (t + [c])[1..] == t[1..] + [c];
    }
  }

  lemma {:induction false} DigitsRoundTrip(n: nat)
    ensures FoldDigits(0, NatToDigits(n)) == n
  {
    if n >= 10 {
      DigitsRoundTrip(n / 10);
      FoldDigitsSnoc(0, NatToDigits(n / 10), DigitChar(n % 10));
    }
  }

  /** Scanning a run of digits to the end of the text yields their value. */
  lemma {:induction false} ScanDigits(s: string, i: nat, negative: bool, acc: nat)
    requires i <= |s| && AllDigits(s[i..])
    ensures Scan(s, i, InDigits, negative, acc) == Some(WithSign(negative, FoldDigits(acc, s[i..])))
    decreases |s| - i
  {
    if i < |s| {
      assert s[i..][1..] == s[i + 1..];
      ScanDigits(s, i + 1, negative, acc * 10 + DigitOf(s[i]));
    }
  }

  /** `int(str(n)) == n` for every integer `n`. */
  lemma {:induction false} IntRoundTrip(n: int)
    ensures ParsePyInt(IntToString(n)) == Some(n)
  {
    var s := IntToString(n);
    if n < 0 {
      var ds := NatToDigits(-n);
      DigitsRoundTrip(-n);
      assert s[1..] == ds && s[2..] == ds[1..];
      ScanDigits(s, 2, true, DigitOf(ds[0]));
      assert FoldDigits(0, ds) == FoldDigits(DigitOf(ds[0]), ds[1..]);
      assert Scan(s, 1, Signed, true, 0) == Scan(s, 2, InDigits, true, DigitOf(s[1]));
      assert Scan(s, 0, Leading, false, 0) == Scan(s, 1, Signed, true, 0);
    } else {
      DigitsRoundTrip(n);
      ScanDigits(s, 1, false, DigitOf(s[0]));
      assert FoldDigits(0, s) == FoldDigits(DigitOf(s[0]), s[1..]);
      assert Scan(s, 0, Leading, false, 0) == Scan(s, 1, InDigits, false, DigitOf(s[0]));
    }
  }

  /** `str` is injective on integers, so distinct task ids give distinct keys. */
  lemma IntToStringInjective(a: int, b: int)
    requires IntToString(a) == IntToString(b)
    ensures a == b
  {
    IntRoundTrip(a);
    IntRoundTrip(b);
  }
}

=== FILE: task_order.dfy ===
/** The order the task store lists tasks in: `list.sort(key=created_at,
    reverse=True)`, Python's stable sort with the newest task first. */
module TaskOrder {

  import opened Clock
  import opened Models

  /** The sort key: the creation time. */
  function Key(t: Task): int {
    Instant(t.createdAt)
  }

  /** Newest first: creation times never increase along the list. */
  predicate NewestFirst(ts: seq<Task>) {
    forall i, j :: 0 <= i < j < |ts| ==> Key(ts[i]) >= Key(ts[j])
  }

  /** The tasks of `ts` created at instant `k`, in their order in `ts`. */
  function CreatedAt(ts: seq<Task>, k: int): (r: seq<Task>)
    ensures forall t :: t in r ==> t in ts && Key(t) == k
  {
    if |ts| == 0 then []
    else (if Key(ts[0]) == k then [ts[0]] else []) + CreatedAt(ts[1..], k)
  }

  /** Places `x` before the first task that is not newer than it, in front
      of any task that shares its key. */
  function Insert(x: Task, ts: seq<Task>): (r: seq<Task>)
    requires NewestFirst(ts)
    ensures NewestFirst(r)
    ensures multiset(r) == multiset(ts) + multiset{x}
    ensures |r| > 0 && (Key(r[0]) == Key(x) || (|ts| > 0 && r[0] == ts[0]))
  {
    if |ts| == 0 || Key(ts[0]) <= Key(x) then [x] + ts
    else
      var rest := Insert(x, ts[1..]);
      assert ts == [ts[0]] + ts[1..];
      InsertedBelowHead(ts[0], x, ts[1..], rest);
      [ts[0]] + rest
  }

  /** A task newer than everything inserted below it stays in front. */
  lemma InsertedBelowHead(a: Task, x: Task, tail: seq<Task>, rest: seq<Task>)
    requires NewestFirst([a] + tail) && Key(x) < Key(a)
    requires NewestFirst(rest) && multiset(rest) == multiset(tail) + multiset{x}
    ensures NewestFirst([a] + rest)
  {
    forall t | t in rest
      ensures Key(t) <= Key(a)
    {
      assert t in multiset(rest);
      if t != x {
        assert t in multiset(tail);
        var j :| 0 <= j < |tail| && tail[j] == t;
        assert ([a] + tail)[0] == a && ([a] + tail)[j + 1] == t;
      }
    }
    ConsNewestFirst(a, rest);
  }

  lemma ConsNewestFirst(a: Task, rest: seq<Task>)
    requires NewestFirst(rest) && forall t :: t in rest ==> Key(t) <= Key(a)
    ensures NewestFirst([a] + rest)
  {
    var r := [a] + rest;
    forall i, j | 0 <= i < j < |r|
      ensures Key(r[i]) >= Key(r[j])
    {
      assert r[j] == rest[j - 1];
      if i > 0 {
        assert r[i] == rest[i - 1];
      }
    }
  }

  /** `sorted(ts, key=created_at, reverse=True)` */
  function SortNewestFirst(ts: seq<Task>): (r: seq<Task>)
    ensures NewestFirst(r)
    ensures multiset(r) == multiset(ts)
  {
    if |ts| == 0 then []
    else
      assert ts == [ts[0]] + ts[1..];
      Insert(ts[0], SortNewestFirst(ts[1..]))
  }

  /** Inserting `x` adds it in front of the tasks that share its key. */
  lemma {:induction false} InsertStable(x: Task, ts: seq<Task>, k: int)
    requires NewestFirst(ts)
    ensures CreatedAt(Insert(x, ts), k) == (if Key(x) == k then [x] else []) + CreatedAt(ts, k)
  {
    if |ts| == 0 || Key(ts[0]) <= Key(x) {
      assert ([x] + ts)[1..] == ts;
    } else {
      var rest := Insert(x, ts[1..]);
      assert Insert(x, ts) == [ts[0]] + rest;
      assert ([ts[0]] + rest)[1..] == rest;
      var tail := CreatedAt(ts[1..], k);
      InsertStable(x, ts[1..], k);
      assert CreatedAt(rest, k) == (if Key(x) == k then [x] else []) + tail;
      if Key(x) == k {
        assert Key(ts[0]) != k;
        assert CreatedAt(ts, k) == tail;
        assert CreatedAt([ts[0]] + rest, k) == CreatedAt(rest, k);
      } else {
        assert CreatedAt(rest, k) == tail;
        assert CreatedAt([ts[0]] + rest, k) == (if Key(ts[0]) == k then [ts[0]] else []) + tail;
      }
    }
  }

  /** The sort is stable: tasks created at the same instant keep their order. */
  lemma {:induction false} SortStable(ts: seq<Task>, k: int)
    ensures CreatedAt(SortNewestFirst(ts), k) == CreatedAt(ts, k)
  {
    if |ts| > 0 {
      SortStable(ts[1..], k);
      InsertStable(ts[0], SortNewestFirst(ts[1..]), k);
    }
  }
}

=== FILE: task_store.dfy ===
/** The task store of the voice todo app (`Database`): a vector-database
    collection used as a keyed document store. The collection is modelled as
    its records in insertion order; each record is keyed by a string id and
    holds a flat metadata dictionary, the text that was embedded, and the
    embedding. The embedding client, the ISO date-time encoding and the
    nearest-neighbour ranking are parameters. */
module TaskStore {

  import opened Wrappers
  import opened Text
  import opened Numeric
  import opened Clock
  import opened Models
  import opened TaskOrder

  /** `datetime.isoformat()` and `datetime.fromisoformat()`. */
  datatype IsoCodec = IsoCodec(format: DateTime -> string, parse: string -> Option<DateTime>)

  /** The encoding reads back what it wrote, and never writes an empty string. */
  ghost predicate RoundTrips(codec: IsoCodec) {
    forall d :: codec.parse(codec.format(d)) == Some(d) && codec.format(d) != ""
  }

  /** The metadata dictionary of one record; an absent key is None. */
  datatype Metadata = Metadata(
    id: string,
    title: string,
    priority: string,
    createdAt: string,
    scheduledTime: Option<string>,
    category: Option<string>)

  /** The vector the embedding client returns; the model keeps only the text
      it was computed from. */
  datatype Embedding = EmbeddingOf(source: string)

  datatype Record = Record(id: string, metadata: Metadata, document: string, embedding: Embedding)

  /** The collection and the next id to hand out (`_next_id`). */
  datatype Database = Database(records: seq<Record>, nextId: int)

  /** No two records share an id. */
  ghost predicate Distinct(records: seq<Record>) {
    forall i, j :: 0 <= i < j < |records| ==> records[i].id != records[j].id
  }

  /** A record whose metadata names its own key, and whose key, if it reads as
      an integer, is below the counter. */
  predicate RecordOk(rec: Record, nextId: int) {
    && rec.metadata.id == rec.id
    && (ParsePyInt(rec.id).Some? ==> ParsePyInt(rec.id).value < nextId)
  }

  /** The store invariant that keeps newly handed-out ids fresh. */
  ghost predicate Valid(db: Database) {
    Distinct(db.records) && forall x :: x in db.records ==> RecordOk(x, db.nextId)
  }

  function Ids(records: seq<Record>): (ids: seq<string>)
    ensures |ids| == |records|
    ensures forall i :: 0 <= i < |records| ==> ids[i] == records[i].id
  {
    if |records| == 0 then [] else [records[0].id] + Ids(records[1..])
  }

  /** `_init_id_counter`: one past the largest positive integer-parseable id,
      or 1; ids that `int()` rejects are skipped. */
  method InitIdCounter(ids: seq<string>) returns (next: int)
    ensures next >= 1
    ensures forall i :: 0 <= i < |ids| && ParsePyInt(ids[i]).Some? ==> ParsePyInt(ids[i]).value < next
    ensures next == 1 || exists i :: 0 <= i < |ids| && ParsePyInt(ids[i]) == Some(next - 1)
  {
    if |ids| == 0 {
      return 1;
    }
    var maxId := 0;
    var k := 0;
    while k < |ids|
      invariant 0 <= k <= |ids|
      invariant maxId >= 0
      invariant forall i :: 0 <= i < k && ParsePyInt(ids[i]).Some? ==> ParsePyInt(ids[i]).value <= maxId
      invariant maxId == 0 || exists i :: 0 <= i < k && ParsePyInt(ids[i]) == Some(maxId)
    {
      var parsed := ParsePyInt(ids[k]);
      if parsed.Some? && parsed.value > maxId {
        maxId := parsed.value;
      }
      k := k + 1;
    }
    next := if maxId > 0 then maxId + 1 else 1;
  }

  /** A `Database` opened on an existing collection. The constructor checks
      nothing about the records; distinct keys and each record's metadata
      id equal to its key hold only for a collection this program wrote,
      and are assumed of the caller here. */
  method Open(records: seq<Record>) returns (db: Database)
    requires Distinct(records)
    requires forall x :: x in records ==> x.metadata.id == x.id
    ensures db.records == records && db.nextId >= 1
    ensures Valid(db)
  {
    var next := InitIdCounter(Ids(records));
    db := Database(records, next);
  }

  /** `_get_next_id`: hands out the counter and advances it. */
  function NextId(db: Database): (r: (int, Database))
    ensures r.0 == db.nextId && r.1.nextId > r.0
    ensures r.1.records == db.records
  {
    (db.nextId, db.(nextId := db.nextId + 1))
  }

  /** `_task_to_text`: the title, then the category after a space when set. */
  function TaskToText(t: TaskBase): (text: string)
    ensures t.category.None? ==> text == t.title
    ensures t.category.Some? ==> text == t.title + " " + CategoryValue(t.category.value)
  {
    var parts := [t.title] + (if t.category.Some? then [CategoryValue(t.category.value)] else []);
    assert t.category.Some? ==>
      parts[1..] == [CategoryValue(t.category.value)] && Join(parts[1..], " ") == CategoryValue(t.category.value);
    Join(parts, " ")
  }

  /** `_task_to_metadata` */
  function TaskToMetadata(id: int, t: TaskBase, createdAt: DateTime, codec: IsoCodec): Metadata {
    Metadata(
      IntToString(id),
      t.title,
      PriorityValue(t.priority),
      codec.format(createdAt),
      if t.scheduledTime.Some? then Some(codec.format(t.scheduledTime.value)) else None,
      if t.category.Some? then Some(CategoryValue(t.category.value)) else None)
  }

  /** `_metadata_to_task`: None where a field fails to convert (the source
      raises, and its callers treat that as "no task"). */
  function MetadataToTask(m: Metadata, codec: IsoCodec): (r: Option<Task>)
    ensures r.Some? ==> ParsePyInt(m.id) == Some(r.value.id)
    ensures r.Some? ==> r.value.title == m.title && PriorityValue(r.value.priority) == m.priority
    ensures r.Some? ==> (r.value.category.Some? <==> m.category.Some?)
  {
    var id := ParsePyInt(m.id);
    var priority := PriorityFromValue(m.priority);
    var created := codec.parse(m.createdAt);
    var scheduled: Option<Option<DateTime>> :=
      if m.scheduledTime.Some? && m.scheduledTime.value != "" then
        (match codec.parse(m.scheduledTime.value) case Some(d) => Some(Some(d)) case None => None)
      else Some(None);
    var category: Option<Option<Category>> :=
      if m.category.Some? then
        (match CategoryFromValue(m.category.value) case Some(c) => Some(Some(c)) case None => None)
      else Some(None);
    if id.None? || priority.None? || created.None? || scheduled.None? || category.None? then None
    else Some(Task(id.value, m.title, scheduled.value, priority.value, category.value, created.value))
  }

  /** Writing a task's metadata and reading it back recovers every field. */
  lemma MetadataRoundTrip(id: int, t: TaskBase, createdAt: DateTime, codec: IsoCodec)
    requires RoundTrips(codec)
    ensures MetadataToTask(TaskToMetadata(id, t, createdAt, codec), codec) == Some(WithIdentity(t, id, createdAt))
  {
    IntRoundTrip(id);
    assert codec.parse(codec.format(createdAt)) == Some(createdAt);
    if t.scheduledTime.Some? {
      assert codec.parse(codec.format(t.scheduledTime.value)) == Some(t.scheduledTime.value);
      assert codec.format(t.scheduledTime.value) != "";
    }
  }

  /** The first record under `key` (`collection.get(ids=[key])`). */
  function FindRecord(records: seq<Record>, key: string): (r: Option<nat>)
    ensures r.Some? ==> r.value < |records| && records[r.value].id == key
    ensures r.Some? ==> forall i :: 0 <= i < r.value ==> records[i].id != key
    ensures r.None? ==> forall i :: 0 <= i < |records| ==> records[i].id != key
  {
    if |records| == 0 then None
    else if records[0].id == key then Some(0)
    else match FindRecord(records[1..], key)
      case Some(i) => Some(i + 1)
      case None => None
  }

  /** `get_task` */
  function GetTask(db: Database, id: int, codec: IsoCodec): (r: Option<Task>)
    ensures r.Some? ==> exists i :: 0 <= i < |db.records| && db.records[i].id == IntToString(id)
    ensures r.Some? && Valid(db) ==> r.value.id == id
  {
    match FindRecord(db.records, IntToString(id))
    case Some(i) =>
      IntRoundTrip(id);
      assert db.records[i] in db.records;
      MetadataToTask(db.records[i].metadata, codec)
    case None => None
  }

  /** A key absent from `records` is found at the record appended after them. */
  lemma {:induction false} FindAppended(records: seq<Record>, rec: Record)
    requires forall i :: 0 <= i < |records| ==> records[i].id != rec.id
    ensures FindRecord(records + [rec], rec.id) == Some(|records|)
  {
    if |records| > 0 {
      assert (records + [rec])[1..] == records[1..] + [rec];
      FindAppended(records[1..], rec);
    }
  }

  /** `collection.delete(ids=[key])` */
  function RemoveKey(records: seq<Record>, key: string): (r: seq<Record>)
    ensures forall i :: 0 <= i < |r| ==> r[i].id != key
    ensures forall x :: x in r <==> x in records && x.id != key
    ensures |r| <= |records|
    ensures |records| == 1 ==> r == (if records[0].id == key then [] else records)
  {
    if |records| == 0 then []
    else if records[0].id == key then RemoveKey(records[1..], key)
    else [records[0]] + RemoveKey(records[1..], key)
  }

  /** Removal works record by record, so the survivors keep their order:
      removing from `a + b` removes from each part in turn. */
  lemma {:induction false} RemoveKeyAppend(a: seq<Record>, b: seq<Record>, key: string)
    ensures RemoveKey(a + b, key) == RemoveKey(a, key) + RemoveKey(b, key)
  {
    if |a| == 0 {
      assert a + b == b;
    } else {
      assert (a + b)[0] == a[0];
      assert (a + b)[1..] == a[1..] + b;
      RemoveKeyAppend(a[1..], b, key);
    }
  }

  /** `create_task`: takes the next id, stamps `now`, appends the record and
      reads the task back. */
  function CreateTask(db: Database, t: TaskBase, now: DateTime, codec: IsoCodec): (r: (Database, Option<Task>))
    ensures r.0.nextId == db.nextId + 1
    ensures |r.0.records| == |db.records| + 1 && r.0.records[..|db.records|] == db.records
    ensures Valid(db) ==> Valid(r.0)
    // the appended record is the task's: its key, metadata, text and that text's embedding
    ensures var added := r.0.records[|db.records|];
      && added.id == IntToString(db.nextId)
      && added.metadata == TaskToMetadata(db.nextId, t, now, codec)
      && added.document == TaskToText(t) && added.embedding == EmbeddingOf(added.document)
    // the reply is what the new store reads back under the new id
    ensures r.1 == GetTask(r.0, db.nextId, codec)
    ensures Valid(db) && RoundTrips(codec) ==> r.1 == Some(WithIdentity(t, db.nextId, now))
  {
    var (id, db1) := NextId(db);
    var text := TaskToText(t);
    var rec := Record(IntToString(id), TaskToMetadata(id, t, now, codec), text, EmbeddingOf(text));
    var db2 := db1.(records := db1.records + [rec]);
    CreateReadsBack(db, t, now, codec, db2);
    (db2, GetTask(db2, id, codec))
  }

  /** The counter's next id is not yet a key of a well-formed store. */
  lemma FreshKey(db: Database)
    requires Valid(db)
    ensures forall x :: x in db.records ==> x.id != IntToString(db.nextId)
  {
    IntRoundTrip(db.nextId);
  }

  lemma CreateReadsBack(db: Database, t: TaskBase, now: DateTime, codec: IsoCodec, db2: Database)
    requires db2.nextId == db.nextId + 1
    requires db2.records == db.records + [Record(IntToString(db.nextId), TaskToMetadata(db.nextId, t, now, codec),
                                                 TaskToText(t), EmbeddingOf(TaskToText(t)))]
    ensures Valid(db) ==> Valid(db2)
    ensures Valid(db) && RoundTrips(codec) ==> GetTask(db2, db.nextId, codec) == Some(WithIdentity(t, db.nextId, now))
  {
    if Valid(db) {
      FreshKey(db);
      IntRoundTrip(db.nextId);
      var n := |db.records|;
      assert forall i :: 0 <= i < n ==> db.records[i] in db.records;
      FindAppended(db.records, db2.records[n]);
      if RoundTrips(codec) {
        MetadataRoundTrip(db.nextId, t, now, codec);
      }
    }
  }

  /** The merge rule of `update_task`: a field set in the update wins. */
  function Merge(prior: Task, u: TaskUpdate): (b: TaskBase)
    ensures b.title == u.title.GetOr(prior.title)
    ensures b.scheduledTime == (if u.scheduledTime.Some? then u.scheduledTime else prior.scheduledTime)
    ensures b.priority == u.priority.GetOr(prior.priority)
    ensures b.category == (if u.category.Some? then u.category else prior.category)
  {
    TaskBase(
      u.title.GetOr(prior.title),
      if u.scheduledTime.Some? then u.scheduledTime else prior.scheduledTime,
      u.priority.GetOr(prior.priority),
      if u.category.Some? then u.category else prior.category)
  }

  /** Whether an update changes what the embedding was computed from. */
  predicate NeedsEmbedding(u: TaskUpdate) {
    u.title.Some? || u.category.Some?
  }

  /** `update_task`: merges the update into the stored task, deletes the
      record and re-adds it (at the end) with the same id and creation time;
      the embedding is recomputed only when the title or category is set. */
  function UpdateTask(db: Database, id: int, u: TaskUpdate, codec: IsoCodec): (r: (Database, Option<Task>))
    ensures GetTask(db, id, codec).None? ==> r == (db, None)
    ensures r.0.nextId == db.nextId
    ensures Valid(db) ==> Valid(r.0)
    ensures GetTask(db, id, codec).Some? ==>
      && |r.0.records| > 0
      && var last := r.0.records[|r.0.records| - 1];
      && last.id == IntToString(id)
      && r.0.records[..|r.0.records| - 1] == RemoveKey(db.records, IntToString(id))
      && last.metadata == TaskToMetadata(id, Merge(GetTask(db, id, codec).value, u), GetTask(db, id, codec).value.createdAt, codec)
      && r.1 == GetTask(r.0, id, codec)
      && (NeedsEmbedding(u) ==> last.embedding == EmbeddingOf(TaskToText(Merge(GetTask(db, id, codec).value, u))))
      && (!NeedsEmbedding(u) ==> exists x :: x in db.records && x.id == IntToString(id) && last.embedding == x.embedding)
    ensures Valid(db) && RoundTrips(codec) && GetTask(db, id, codec).Some? ==>
      var prior := GetTask(db, id, codec).value;
      r.1 == Some(WithIdentity(Merge(prior, u), prior.id, prior.createdAt))
  {
    var key := IntToString(id);
    match FindRecord(db.records, key)
    case None => (db, None)
    case Some(i) =>
      match MetadataToTask(db.records[i].metadata, codec)
      case None => (db, None)
      case Some(prior) =>
        var merged := Merge(prior, u);
        var metadata := TaskToMetadata(id, merged, prior.createdAt, codec);
        var stored := db.records[i];
        var text :=
          if NeedsEmbedding(u) || stored.document == "" then TaskToText(merged) else stored.document;
        var embedding := if NeedsEmbedding(u) then EmbeddingOf(text) else stored.embedding;
        var db2 := db.(records := RemoveKey(db.records, key) + [Record(key, metadata, text, embedding)]);
        UpdateReadsBack(db, id, i, prior, db2, merged, codec);
        (db2, GetTask(db2, id, codec))
  }

  /** Removing a key keeps the remaining ids distinct. */
  lemma {:induction false} RemoveKeyDistinct(records: seq<Record>, key: string)
    requires Distinct(records)
    ensures Distinct(RemoveKey(records, key))
  {
    if |records| > 0 {
      RemoveKeyDistinct(records[1..], key);
      var rest := RemoveKey(records[1..], key);
      forall x | x in rest ensures x.id != records[0].id {
        var k :| 0 <= k < |records[1..]| && records[1..][k] == x;
        assert records[k + 1] == x;
      }
    }
  }

  lemma UpdateReadsBack(db: Database, id: int, i: nat, prior: Task, db2: Database, merged: TaskBase, codec: IsoCodec)
    requires i < |db.records| && db.records[i].id == IntToString(id)
    requires MetadataToTask(db.records[i].metadata, codec) == Some(prior)
    requires |db2.records| > 0 && db2.nextId == db.nextId
    requires db2.records[..|db2.records| - 1] == RemoveKey(db.records, IntToString(id))
    requires db2.records[|db2.records| - 1].id == IntToString(id)
    requires db2.records[|db2.records| - 1].metadata == TaskToMetadata(id, merged, prior.createdAt, codec)
    ensures Valid(db) ==> Valid(db2)
    ensures Valid(db) && RoundTrips(codec) ==> GetTask(db2, id, codec) == Some(WithIdentity(merged, prior.id, prior.createdAt))
  {
    var key := IntToString(id);
    var n := |db2.records|;
    var kept := db2.records[..n - 1];
    assert db2.records == kept + [db2.records[n - 1]];
    FindAppended(kept, db2.records[n - 1]);
    if Valid(db) {
      IntRoundTrip(id);
      assert db.records[i] in db.records;
      assert prior.id == id;
      RemoveKeyDistinct(db.records, key);
      forall x | x in db2.records ensures RecordOk(x, db2.nextId) {
        if x in kept {
          assert x in db.records;
        }
      }
      if RoundTrips(codec) {
        MetadataRoundTrip(id, merged, prior.createdAt, codec);
      }
    }
  }

  /** `delete_task`: removes every record under the id's key. ChromaDB does
      not raise for a missing id, so the source always reports success. */
  function DeleteTask(db: Database, id: int, codec: IsoCodec): (r: (Database, bool))
    ensures r.1
    ensures GetTask(r.0, id, codec).None?
    ensures forall x :: x in r.0.records <==> x in db.records && x.id != IntToString(id)
    // the survivors stay in their original order
    ensures r.0.records == RemoveKey(db.records, IntToString(id))
    ensures r.0.nextId == db.nextId
    ensures Valid(db) ==> Valid(r.0)
  {
    var key := IntToString(id);
    var db2 := db.(records := RemoveKey(db.records, key));
    DeleteKeepsValid(db, key, db2);
    (db2, true)
  }

  lemma DeleteKeepsValid(db: Database, key: string, db2: Database)
    requires db2 == db.(records := RemoveKey(db.records, key))
    ensures Valid(db) ==> Valid(db2)
  {
    if Valid(db) {
      RemoveKeyDistinct(db.records, key);
    }
  }

  /** The record a lookup by key returns. */
  function Lookup(records: seq<Record>, key: string): (r: Option<Record>)
    ensures r.Some? <==> exists i :: 0 <= i < |records| && records[i].id == key
    ensures r.Some? ==> r.value in records && r.value.id == key
  {
    match FindRecord(records, key)
    case Some(i) => Some(records[i])
    case None => None
  }

  /** Deleting one key does not change what another key looks up. */
  lemma {:induction false} LookupAfterRemove(records: seq<Record>, key: string, other: string)
    requires other != key
    ensures Lookup(RemoveKey(records, key), other) == Lookup(records, other)
  {
    if |records| > 0 {
      LookupAfterRemove(records[1..], key, other);
      var rest := RemoveKey(records[1..], key);
      if records[0].id != key {
        assert RemoveKey(records, key) == [records[0]] + rest;
        assert ([records[0]] + rest)[1..] == rest;
      }
    }
  }

  /** Appending a record under one key does not change what another key looks up. */
  lemma {:induction false} LookupAfterAppend(records: seq<Record>, rec: Record, other: string)
    requires rec.id != other
    ensures Lookup(records + [rec], other) == Lookup(records, other)
  {
    if |records| > 0 {
      assert (records + [rec])[1..] == records[1..] + [rec];
      LookupAfterAppend(records[1..], rec, other);
    }
  }

  /** `get_task` reads through `Lookup`. */
  lemma GetTaskByLookup(db: Database, id: int, codec: IsoCodec)
    ensures GetTask(db, id, codec) ==
      (match Lookup(db.records, IntToString(id))
       case Some(rec) => MetadataToTask(rec.metadata, codec)
       case None => None)
  {
  }

  /** An update touches only its own task: every other id reads back as before. */
  lemma UpdateLeavesOthers(db: Database, id: int, u: TaskUpdate, other: int, codec: IsoCodec)
    requires other != id
    ensures GetTask(UpdateTask(db, id, u, codec).0, other, codec) == GetTask(db, other, codec)
  {
    var key := IntToString(id);
    var okey := IntToString(other);
    IntRoundTrip(id);
    IntRoundTrip(other);
    var db2 := UpdateTask(db, id, u, codec).0;
    GetTaskByLookup(db, other, codec);
    GetTaskByLookup(db2, other, codec);
    if db2 != db {
      var n := |db2.records|;
      assert db2.records == RemoveKey(db.records, key) + [db2.records[n - 1]];
      LookupAfterAppend(RemoveKey(db.records, key), db2.records[n - 1], okey);
      LookupAfterRemove(db.records, key, okey);
    }
  }

  /** A deletion touches only its own task: every other id reads back as before. */
  lemma DeleteLeavesOthers(db: Database, id: int, other: int, codec: IsoCodec)
    requires other != id
    ensures GetTask(DeleteTask(db, id, codec).0, other, codec) == GetTask(db, other, codec)
  {
    IntRoundTrip(id);
    IntRoundTrip(other);
    GetTaskByLookup(db, other, codec);
    GetTaskByLookup(DeleteTask(db, id, codec).0, other, codec);
    LookupAfterRemove(db.records, IntToString(id), IntToString(other));
  }

  /** Converts every record's metadata; None as soon as one conversion fails,
      where the source's loop raises. */
  function ConvertAll(recs: seq<Record>, codec: IsoCodec): (r: Option<seq<Task>>)
    ensures r.Some? ==> |r.value| == |recs|
    ensures r.Some? ==> forall i :: 0 <= i < |recs| ==> MetadataToTask(recs[i].metadata, codec) == Some(r.value[i])
    ensures r.None? <==> exists i :: 0 <= i < |recs| && MetadataToTask(recs[i].metadata, codec).None?
  {
    if |recs| == 0 then Some([])
    else
      match MetadataToTask(recs[0].metadata, codec)
      case None => None
      case Some(t) =>
        match ConvertAll(recs[1..], codec)
        case None => None
        case Some(ts) => Some([t] + ts)
  }

  /** Whether a record passes the `where={"category": category}` filter; an
      empty or absent category selects everything. */
  predicate Selected(rec: Record, category: Option<string>) {
    category.None? || category.value == "" || rec.metadata.category == category
  }

  /** The records a `get` with the category filter returns, in store order:
      every selected record as often as it is stored, and nothing else. */
  function SelectCategory(records: seq<Record>, category: Option<string>): (r: seq<Record>)
    ensures forall x :: x in r <==> x in records && Selected(x, category)
    ensures forall x :: multiset(r)[x] == if Selected(x, category) then multiset(records)[x] else 0
  {
    if |records| == 0 then []
    else
      var rest := SelectCategory(records[1..], category);
      assert records == [records[0]] + records[1..];
      (if Selected(records[0], category) then [records[0]] else []) + rest
  }

  /** Converts the records and sorts them newest first; an empty list where
      a conversion failed. */
  function ListTasks(recs: seq<Record>, codec: IsoCodec): (r: seq<Task>)
    ensures NewestFirst(r)
    ensures ConvertAll(recs, codec).None? ==> r == []
    ensures ConvertAll(recs, codec).Some? ==> multiset(r) == multiset(ConvertAll(recs, codec).value)
  {
    match ConvertAll(recs, codec)
    case None => []
    case Some(ts) => SortNewestFirst(ts)
  }

  /** Listed tasks created at the same instant keep the records' order. */
  lemma ListTasksKeepsOrderOnTies(recs: seq<Record>, codec: IsoCodec, k: int)
    ensures ConvertAll(recs, codec).Some? ==>
      CreatedAt(ListTasks(recs, codec), k) == CreatedAt(ConvertAll(recs, codec).value, k)
  {
    if ConvertAll(recs, codec).Some? {
      SortStable(ConvertAll(recs, codec).value, k);
    }
  }

  /** One record that fails to convert empties the listing. */
  lemma ListTasksFailsOnAnyRecord(recs: seq<Record>, codec: IsoCodec)
    ensures (exists i :: 0 <= i < |recs| && MetadataToTask(recs[i].metadata, codec).None?) ==> ListTasks(recs, codec) == []
  {
  }

  /** When every record converts, the listing has one task per record and
      lists each record's task. */
  lemma ListTasksListsEach(recs: seq<Record>, codec: IsoCodec)
    ensures (forall x :: x in recs ==> MetadataToTask(x.metadata, codec).Some?) ==>
      var r := ListTasks(recs, codec);
      && |r| == |recs|
      && (forall x :: x in recs ==> MetadataToTask(x.metadata, codec).value in r)
  {
    var r := ListTasks(recs, codec);
    if forall x :: x in recs ==> MetadataToTask(x.metadata, codec).Some? {
      assert forall i :: 0 <= i < |recs| ==> recs[i] in recs;
      var ts := ConvertAll(recs, codec).value;
      assert |r| == |multiset(r)| == |multiset(ts)| == |ts|;
      forall x | x in recs
        ensures MetadataToTask(x.metadata, codec).value in r
      {
        var i :| 0 <= i < |recs| && recs[i] == x;
        assert ts[i] in multiset(ts);
      }
    }
  }

  /** Every listed task is the conversion of one of the records. */
  lemma ListTasksFromRecords(recs: seq<Record>, codec: IsoCodec)
    ensures forall t :: t in ListTasks(recs, codec) ==>
      exists i :: 0 <= i < |recs| && MetadataToTask(recs[i].metadata, codec) == Some(t)
  {
    var r := ListTasks(recs, codec);
    if ts :| ConvertAll(recs, codec) == Some(ts) {
      forall t | t in r
        ensures exists i :: 0 <= i < |recs| && MetadataToTask(recs[i].metadata, codec) == Some(t)
      {
        assert t in multiset(r);
        assert t in multiset(ts);
        var i :| 0 <= i < |ts| && ts[i] == t;
      }
    }
  }

  /** `get_all_tasks`: the tasks of the records the category filter selects,
      newest first, one per selected record; an empty list when any of them
      fails to convert. */
  function GetAllTasks(db: Database, category: Option<string>, codec: IsoCodec): (r: seq<Task>)
    ensures NewestFirst(r)
    ensures var selected := SelectCategory(db.records, category);
      && (ConvertAll(selected, codec).None? ==> r == [])
      && (ConvertAll(selected, codec).Some? ==> multiset(r) == multiset(ConvertAll(selected, codec).value))
  {
    ListTasks(SelectCategory(db.records, category), codec)
  }

  /** Every listed task comes from a selected record. */
  lemma GetAllTasksFromSelected(db: Database, category: Option<string>, codec: IsoCodec)
    ensures forall t :: t in GetAllTasks(db, category, codec) ==>
      exists x :: x in db.records && Selected(x, category) && MetadataToTask(x.metadata, codec) == Some(t)
  {
    var selected := SelectCategory(db.records, category);
    ListTasksFromRecords(selected, codec);
    assert forall i :: 0 <= i < |selected| ==> selected[i] in selected;
  }

  /** One selected record that fails to convert empties the list. */
  lemma GetAllTasksFailsOnAnyRecord(db: Database, category: Option<string>, codec: IsoCodec)
    ensures (exists x :: x in db.records && Selected(x, category) && MetadataToTask(x.metadata, codec).None?) ==>
      GetAllTasks(db, category, codec) == []
  {
    var selected := SelectCategory(db.records, category);
    if x :| x in db.records && Selected(x, category) && MetadataToTask(x.metadata, codec).None? {
      assert x in selected;
      var i :| 0 <= i < |selected| && selected[i] == x;
      ListTasksFailsOnAnyRecord(selected, codec);
    }
  }

  /** When every selected record converts, every one of them is listed. */
  lemma GetAllTasksListsEverySelected(db: Database, category: Option<string>, codec: IsoCodec)
    ensures (forall x :: x in db.records && Selected(x, category) ==> MetadataToTask(x.metadata, codec).Some?) ==>
      forall x :: x in db.records && Selected(x, category) ==> MetadataToTask(x.metadata, codec).value in GetAllTasks(db, category, codec)
  {
    var selected := SelectCategory(db.records, category);
    if forall x :: x in db.records && Selected(x, category) ==> MetadataToTask(x.metadata, codec).Some? {
      ListTasksListsEach(selected, codec);
    }
  }

  /** The collection's nearest-neighbour query: the records ranked by
      closeness to a query embedding. */
  type Ranking = (Embedding, seq<Record>) -> seq<Record>

  /** A ranking that only returns records of the collection it searches. */
  ghost predicate RanksOwnRecords(nearest: Ranking) {
    forall q, recs, x :: x in nearest(q, recs) ==> x in recs
  }

  /** The number of matches a search asks for (`n_results`). */
  const SearchLimit := 10

  /** The records a query with `n_results=10` returns: the first ten of the ranking. */
  function TopHits(ranked: seq<Record>): (hits: seq<Record>)
    ensures |hits| == if |ranked| <= SearchLimit then |ranked| else SearchLimit
    ensures hits <= ranked
  {
    if |ranked| <= SearchLimit then ranked else ranked[..SearchLimit]
  }

  /** `search_tasks`: the ten records nearest to the query's embedding,
      converted and listed newest first, so the first result is the newest
      of them rather than the nearest. */
  function SearchTasks(db: Database, query: string, nearest: Ranking, codec: IsoCodec): (r: seq<Task>)
    ensures |r| <= SearchLimit
    ensures NewestFirst(r)
    ensures var hits := TopHits(nearest(EmbeddingOf(query), db.records));
      && (ConvertAll(hits, codec).None? ==> r == [])
      && (ConvertAll(hits, codec).Some? ==> multiset(r) == multiset(ConvertAll(hits, codec).value))
  {
    var hits := TopHits(nearest(EmbeddingOf(query), db.records));
    var r := ListTasks(hits, codec);
    assert |r| <= SearchLimit by {
      if ConvertAll(hits, codec).Some? {
        assert |r| == |multiset(r)| == |multiset(ConvertAll(hits, codec).value)| == |hits|;
      }
    }
    r
  }

  /** Search hits created at the same instant keep the ranking's order, as
      Python's stable sort keeps them. */
  lemma SearchKeepsRankingOnTies(db: Database, query: string, nearest: Ranking, codec: IsoCodec, k: int)
    ensures var hits := TopHits(nearest(EmbeddingOf(query), db.records));
      ConvertAll(hits, codec).Some? ==>
        CreatedAt(SearchTasks(db, query, nearest, codec), k) == CreatedAt(ConvertAll(hits, codec).value, k)
  {
    var hits := TopHits(nearest(EmbeddingOf(query), db.records));
    if ConvertAll(hits, codec).Some? {
      SortStable(ConvertAll(hits, codec).value, k);
    }
  }

  /** A ranking that only returns stored records yields only stored tasks. */
  lemma SearchFindsStoredTasks(db: Database, query: string, nearest: Ranking, codec: IsoCodec)
    requires RanksOwnRecords(nearest)
    ensures forall t :: t in SearchTasks(db, query, nearest, codec) ==>
      exists x :: x in db.records && MetadataToTask(x.metadata, codec) == Some(t)
  {
    var ranked := nearest(EmbeddingOf(query), db.records);
    var hits := TopHits(ranked);
    ListTasksFromRecords(hits, codec);
    assert forall i :: 0 <= i < |hits| ==> hits[i] in ranked;
  }
}

=== FILE: task_tools.dfy ===
/** The `create_task`, `update_task` and `delete_task` tools of the voice
    todo agent: argument validation, alias mapping and task resolution in
    front of the task store. Each tool returns the store after the call and
    the reply it reports. */
module TaskTools {

  import opened Wrappers
  import opened Text
  import opened Clock
  import opened Models
  import opened RelativeDate
  import opened TaskStore
  import opened ToolArgs

  /** The task a `create_task` call describes, or the reply that rejects it:
      the title is checked first, then the category, then the schedule. */
  function ValidateCreate(env: Env, title: string, priority: string, scheduledTime: Option<string>, category: Option<string>)
    : (r: Result<TaskBase, Outcome>)
    ensures var sched := Schedule(env, scheduledTime);
      && (Strip(title) == "" ==> r == Failure(BlankTitle))
      && (Strip(title) != "" && !KnownCategory(category) ==> r == Failure(InvalidCategory(category.value)))
      && (Strip(title) != "" && KnownCategory(category) && sched.Failure? ==>
            r == Failure(ScheduleError(scheduledTime.value, sched.error)))
      && (r.Success? <==> Strip(title) != "" && KnownCategory(category) && sched.Success?)
      && (r.Success? ==> r.value.scheduledTime == sched.value)
    ensures r.Success? ==> r.value.title == Strip(title) && r.value.title != ""
    // an unknown priority is not an error: it falls back to medium
    ensures r.Success? ==> r.value.priority == PriorityAlias(priority).GetOr(Medium)
    ensures r.Success? ==> r.value.category == (if TextGiven(category) then CategoryAlias(category.value) else None)
  {
    var name := Strip(title);
    if name == "" then Failure(BlankTitle)
    else
      var level := PriorityAlias(priority).GetOr(Medium);
      var kind := if TextGiven(category) then CategoryAlias(category.value) else None;
      if TextGiven(category) && kind.None? then Failure(InvalidCategory(category.value))
      else
        match Schedule(env, scheduledTime)
        case Failure(e) => Failure(ScheduleError(scheduledTime.value, e))
        case Success(when) => Success(TaskBase(name, when, level, kind))
  }

  /** `create_task`: a rejected call leaves the store as it was; an accepted
      one stores the task under the next id and reports it as read back. */
  function CreateTaskTool(db: Database, env: Env, title: string, priority: string,
                          scheduledTime: Option<string>, category: Option<string>): (r: (Database, Outcome))
    ensures !Mutated(r.1) && !r.1.Crashed? ==> r.0 == db
    ensures ValidateCreate(env, title, priority, scheduledTime, category).Failure? ==>
      r == (db, ValidateCreate(env, title, priority, scheduledTime, category).error)
    ensures Valid(db) ==> Valid(r.0)
    ensures var v := ValidateCreate(env, title, priority, scheduledTime, category);
      && (v.Success? ==> r.0 == CreateTask(db, v.value, env.now, env.codec).0)
      && (Valid(db) && RoundTrips(env.codec) && v.Success? ==> r.1 == Created(WithIdentity(v.value, db.nextId, env.now)))
  {
    match ValidateCreate(env, title, priority, scheduledTime, category)
    case Failure(o) => (db, o)
    case Success(t) =>
      var (db2, created) := CreateTask(db, t, env.now, env.codec);
      (db2, if created.Some? then Created(created.value) else Crashed)
  }

  /** The fields an `update_task` call sets, or the reply that rejects it:
      title, priority, schedule and category are checked in that order. */
  function ValidateUpdate(env: Env, newTitle: Option<string>, priority: Option<string>,
                          scheduledTime: Option<string>, category: Option<string>): (r: Result<TaskUpdate, Outcome>)
    ensures var sched := Schedule(env, scheduledTime);
      && (BlankGiven(newTitle) ==> r == Failure(BlankNewTitle))
      // unlike `create_task`, an unknown priority is rejected
      && (!BlankGiven(newTitle) && !KnownPriority(priority) ==> r == Failure(InvalidPriority(priority.value)))
      && (!BlankGiven(newTitle) && KnownPriority(priority) && sched.Failure? ==>
            r == Failure(ScheduleError(scheduledTime.value, sched.error)))
      && (!BlankGiven(newTitle) && KnownPriority(priority) && sched.Success? && !KnownCategory(category) ==>
            r == Failure(InvalidCategory(category.value)))
      && (r.Success? <==>
            && !BlankGiven(newTitle) && KnownPriority(priority) && sched.Success? && KnownCategory(category)
            && (TextGiven(newTitle) || TextGiven(priority) || TextGiven(scheduledTime) || TextGiven(category)))
      && (r.Success? ==> r.value.scheduledTime == sched.value)
    ensures r == Failure(NoFields) <==>
      !TextGiven(newTitle) && !TextGiven(priority) && !TextGiven(scheduledTime) && !TextGiven(category)
    ensures r.Success? ==> r.value.title == (if TextGiven(newTitle) then Some(Strip(newTitle.value)) else None)
    ensures r.Success? ==> r.value.priority == (if TextGiven(priority) then PriorityAlias(priority.value) else None)
    ensures r.Success? ==> r.value.category == (if TextGiven(category) then CategoryAlias(category.value) else None)
  {
    if BlankGiven(newTitle) then Failure(BlankNewTitle)
    else
      var title := if TextGiven(newTitle) then Some(Strip(newTitle.value)) else None;
      var level := if TextGiven(priority) then PriorityAlias(priority.value) else None;
      if TextGiven(priority) && level.None? then Failure(InvalidPriority(priority.value))
      else
        match Schedule(env, scheduledTime)
        case Failure(e) => Failure(ScheduleError(scheduledTime.value, e))
        case Success(when) =>
          var kind := if TextGiven(category) then CategoryAlias(category.value) else None;
          if TextGiven(category) && kind.None? then Failure(InvalidCategory(category.value))
          else if title.None? && level.None? && when.None? && kind.None? then Failure(NoFields)
          else Success(TaskUpdate(title, when, level, kind))
  }

  /** Field validation only ever rejects with a reply that reports no change. */
  lemma ValidationNeverMutates(env: Env, newTitle: Option<string>, priority: Option<string>,
                               scheduledTime: Option<string>, category: Option<string>)
    ensures var r := ValidateUpdate(env, newTitle, priority, scheduledTime, category);
      r.Failure? ==> !Mutated(r.error)
  {
  }

  /** The part of `update_task` after the task is resolved: a missing task
      or rejected fields leave the store alone; otherwise the fields are
      merged in through the store, whose record is rewritten before it is
      read back, so a failed read-back reports "not found" over the
      rewritten store. */
  function UpdateResolved(db: Database, env: Env, id: int, fields: Result<TaskUpdate, Outcome>): (r: (Database, Outcome))
    requires fields.Failure? ==> !Mutated(fields.error)
    ensures Valid(db) && RoundTrips(env.codec) && !r.1.Updated? ==> r.0 == db
    ensures GetTask(db, id, env.codec).None? ==> r == (db, NotFound(id))
    ensures GetTask(db, id, env.codec).Some? && fields.Failure? ==> r == (db, fields.error)
    ensures r.1.Updated? ==> r.1.id == id && fields.Success? && r.0 == UpdateTask(db, id, fields.value, env.codec).0
    // once the store's update runs, its store stands whatever the read-back gives
    ensures GetTask(db, id, env.codec).Some? && fields.Success? ==>
      && r.0 == UpdateTask(db, id, fields.value, env.codec).0
      && (r.1.Updated? || r.1 == NotFound(id))
      && (r.1.Updated? <==> UpdateTask(db, id, fields.value, env.codec).1.Some?)
    // an existing task with valid fields is updated
    ensures GetTask(db, id, env.codec).Some? && fields.Success? && Valid(db) && RoundTrips(env.codec) ==>
      r == (UpdateTask(db, id, fields.value, env.codec).0,
            Updated(id, Merge(GetTask(db, id, env.codec).value, fields.value).title))
    ensures Valid(db) ==> Valid(r.0)
  {
    if GetTask(db, id, env.codec).None? then (db, NotFound(id))
    else
      match fields
      case Failure(o) => (db, o)
      case Success(u) =>
        var (db2, updated) := UpdateTask(db, id, u, env.codec);
        if updated.Some? then (db2, Updated(id, updated.value.title)) else (db2, NotFound(id))
  }

  /** `update_task`: resolves the task, checks it exists, validates the
      fields, then merges them in through the store. */
  function UpdateTaskTool(db: Database, env: Env, taskId: Option<int>, taskTitle: Option<string>,
                          newTitle: Option<string>, priority: Option<string>,
                          scheduledTime: Option<string>, category: Option<string>): (r: (Database, Outcome))
    ensures Valid(db) && RoundTrips(env.codec) && !r.1.Updated? ==> r.0 == db
    ensures var target := ResolveTarget(db, env, taskId, taskTitle);
      var fields := ValidateUpdate(env, newTitle, priority, scheduledTime, category);
      && (target.Failure? ==> r == (db, target.error))
      && (target.Success? && GetTask(db, target.value, env.codec).None? ==> r == (db, NotFound(target.value)))
      && (target.Success? && GetTask(db, target.value, env.codec).Some? && fields.Failure? ==> r == (db, fields.error))
      && (r.1.Updated? ==>
            && target.Success? && fields.Success? && r.1.id == target.value
            && r.0 == UpdateTask(db, target.value, fields.value, env.codec).0)
      // the store's update, once run, stands even when its read-back fails
      && (target.Success? && GetTask(db, target.value, env.codec).Some? && fields.Success? ==>
            && r.0 == UpdateTask(db, target.value, fields.value, env.codec).0
            && (r.1.Updated? || r.1 == NotFound(target.value)))
      && (target.Success? && GetTask(db, target.value, env.codec).Some? && fields.Success?
          && Valid(db) && RoundTrips(env.codec) ==>
            r == (UpdateTask(db, target.value, fields.value, env.codec).0,
                  Updated(target.value, Merge(GetTask(db, target.value, env.codec).value, fields.value).title)))
    ensures Valid(db) ==> Valid(r.0)
  {
    match ResolveTarget(db, env, taskId, taskTitle)
    case Failure(o) => (db, o)
    case Success(id) =>
      var fields := ValidateUpdate(env, newTitle, priority, scheduledTime, category);
      ValidationNeverMutates(env, newTitle, priority, scheduledTime, category);
      UpdateResolved(db, env, id, fields)
  }

  /** The id a `delete_task` call starts from: `task_number` stands in for
      the id only when no id is given. */
  function DeleteStartId(taskId: Option<int>, taskNumber: Option<int>): (r: Option<int>)
    ensures IntGiven(taskId) ==> r == taskId
    ensures !IntGiven(taskId) && IntGiven(taskNumber) ==> r == taskNumber
    ensures IntGiven(r) <==> IntGiven(taskId) || IntGiven(taskNumber)
  {
    if IntGiven(taskNumber) && !IntGiven(taskId) then taskNumber else taskId
  }

  /** `delete_task`: resolves the task, reports a missing one without
      touching the store, and otherwise deletes it. */
  function DeleteTaskTool(db: Database, env: Env, taskId: Option<int>, taskTitle: Option<string>,
                          taskNumber: Option<int>): (r: (Database, Outcome))
    ensures !r.1.Deleted? ==> r.0 == db
    ensures var target := ResolveTarget(db, env, DeleteStartId(taskId, taskNumber), taskTitle);
      && (target.Failure? ==> r == (db, target.error))
      && (target.Success? && GetTask(db, target.value, env.codec).None? ==> r == (db, NotFound(target.value)))
      && (target.Success? && GetTask(db, target.value, env.codec).Some? ==>
            && r.1 == Deleted(target.value, GetTask(db, target.value, env.codec).value.title)
            && r.0 == DeleteTask(db, target.value, env.codec).0
            && GetTask(r.0, target.value, env.codec).None?
            && forall other :: other != target.value ==> GetTask(r.0, other, env.codec) == GetTask(db, other, env.codec))
    ensures Valid(db) ==> Valid(r.0)
  {
    var target := ResolveTarget(db, env, DeleteStartId(taskId, taskNumber), taskTitle);
    match target
    case Failure(o) => (db, o)
    case Success(id) =>
      match GetTask(db, id, env.codec)
      case None => (db, NotFound(id))
      case Some(task) =>
        var db2 := DeleteTask(db, id, env.codec).0;
        assert forall other :: other != id ==> GetTask(db2, other, env.codec) == GetTask(db, other, env.codec) by {
          forall other | other != id ensures GetTask(db2, other, env.codec) == GetTask(db, other, env.codec) {
            DeleteLeavesOthers(db, id, other, env.codec);
          }
        }
        (db2, Deleted(id, task.title))
  }
}

=== FILE: text.dfy ===
/** String helpers with Python `str` semantics: whitespace as `str.isspace`
    defines it, `strip`, `rstrip(chars)`, `lower`, `in`, `startswith`,
    `split(sep)[0]` and `join`. Strings are sequences of code points, as in
    Python 3. */
module Text {

  import opened Wrappers

  /** Exactly the code points for which Python's `str.isspace()` holds; the
      same set `str.strip()` removes and a regular expression's `\s` matches. */
  predicate IsSpace(c: char) {
    c == ' ' || ('\t' <= c <= '\r') || ('\U{1c}' <= c <= '\U{1f}')
    || c == '\U{85}' || c == '\U{a0}' || c == '\U{1680}'
    || ('\U{2000}' <= c <= '\U{200a}') || c == '\U{2028}' || c == '\U{2029}'
    || c == '\U{202f}' || c == '\U{205f}' || c == '\U{3000}'
  }

  predicate IsDigit(c: char) {
    '0' <= c <= '9'
  }

  /** `s.lstrip()` */
  function LStrip(s: string): (r: string)
    ensures |r| <= |s|
    ensures |r| > 0 ==> !IsSpace(r[0])
    ensures forall i :: 0 <= i < |s| - |r| ==> IsSpace(s[i])
    ensures r == s[|s| - |r|..]
  {
    if |s| > 0 && IsSpace(s[0]) then LStrip(s[1..]) else s
  }

  /** `s.rstrip()` */
  function RStrip(s: string): (r: string)
    ensures r <= s
    ensures |r| > 0 ==> !IsSpace(r[|r| - 1])
    ensures forall i :: |r| <= i < |s| ==> IsSpace(s[i])
  {
    if |s| > 0 && IsSpace(s[|s| - 1]) then RStrip(s[..|s| - 1]) else s
  }

  /** `s.strip()` */
  function Strip(s: string): (r: string)
    ensures |r| <= |s|
    ensures |r| > 0 ==> !IsSpace(r[0]) && !IsSpace(r[|r| - 1])
  {
    RStrip(LStrip(s))
  }

  /** `s.rstrip(chars)` for an explicit character set */
  function RStripChars(s: string, chars: set<char>): (r: string)
    ensures r <= s
    ensures |r| > 0 ==> r[|r| - 1] !in chars
    ensures forall i :: |r| <= i < |s| ==> s[i] in chars
  {
    if |s| > 0 && s[|s| - 1] in chars then RStripChars(s[..|s| - 1], chars) else s
  }

  /** Python's `str.lower()`, restricted to the ASCII letters: every other
      code point is left as it is. */
  function Lower(s: string): (r: string)
    ensures |r| == |s|
    ensures forall i :: 0 <= i < |s| ==> r[i] == LowerChar(s[i])
  {
    if |s| == 0 then [] else [LowerChar(s[0])] + Lower(s[1..])
  }

  function LowerChar(c: char): char {
    if 'A' <= c <= 'Z' then (c as int + 32) as char else c
  }

  /** `sub` occurs in `s` starting at index `i` */
  predicate OccursAt(s: string, sub: string, i: int) {
    0 <= i && i + |sub| <= |s| && s[i..i + |sub|] == sub
  }

  /** Index of the first occurrence of `sub` in `s` (Python's `s.find(sub)`). */
  function IndexOf(s: string, sub: string): (r: Option<nat>)
    ensures r.Some? ==> OccursAt(s, sub, r.value)
    ensures r.Some? ==> forall j :: 0 <= j < r.value ==> !OccursAt(s, sub, j)
    ensures r.None? ==> forall j :: !OccursAt(s, sub, j)
  {
    IndexFrom(s, sub, 0)
  }

  /** First occurrence of `sub` in `s` at or after index `i`. */
  function IndexFrom(s: string, sub: string, i: nat): (r: Option<nat>)
    ensures r.Some? ==> i <= r.value && OccursAt(s, sub, r.value)
    ensures r.Some? ==> forall j :: i <= j < r.value ==> !OccursAt(s, sub, j)
    ensures r.None? ==> forall j :: i <= j ==> !OccursAt(s, sub, j)
    decreases |s| - i
  {
    if i + |sub| > |s| then None
    else if s[i..i + |sub|] == sub then Some(i)
    else IndexFrom(s, sub, i + 1)
  }

  /** Python's `sub in s` */
  predicate Contains(s: string, sub: string) {
    IndexOf(s, sub).Some?
  }

  /** `s.split(sep)[0]` for a non-empty separator: everything before the
      first occurrence of `sep`, or all of `s` when it does not occur. */
  function SplitFirst(s: string, sep: string): (r: string)
    requires |sep| > 0
    ensures r <= s
    ensures !Contains(r, sep)
    ensures Contains(s, sep) ==> OccursAt(s, sep, |r|)
    ensures !Contains(s, sep) ==> r == s
  {
    match IndexOf(s, sep)
    case Some(i) =>
      NoOccurrenceInPrefix(s, sep, i);
      s[..i]
    case None =>
      s
  }

  /** A prefix that ends before the first occurrence of `sep` does not contain it. */
  lemma NoOccurrenceInPrefix(s: string, sep: string, i: nat)
    requires |sep| > 0 && i <= |s|
    requires forall j :: 0 <= j < i ==> !OccursAt(s, sep, j)
    ensures !Contains(s[..i], sep)
  {
    forall j | OccursAt(s[..i], sep, j)
      ensures OccursAt(s, sep, j)
    {
      assert s[..i][j..j + |sep|] == s[j..j + |sep|];
    }
  }

  /** A contiguous slice of a string that does not contain `sub` does not contain it either. */
  lemma NoOccurrenceInSlice(s: string, sub: string, a: nat, b: nat)
    requires a <= b <= |s|
    requires !Contains(s, sub)
    ensures !Contains(s[a..b], sub)
  {
    forall j | OccursAt(s[a..b], sub, j)
      ensures OccursAt(s, sub, a + j)
    {
      var w := s[a..b][j..j + |sub|];
      assert forall k :: 0 <= k < |sub| ==> w[k] == s[a + j + k];
      assert w == s[a + j..a + j + |sub|];
    }
  }

  /** `sep.join(parts)` */
  function Join(parts: seq<string>, sep: string): string {
    if |parts| == 0 then ""
    else if |parts| == 1 then parts[0]
    else parts[0] + sep + Join(parts[1..], sep)
  }
}

=== FILE: thread_store.dfy ===
/** The in-memory conversation store of the LangGraph threads chat
    (`ThreadStore`) and the chat node that reads and extends it. The
    dictionary is modelled as a map plus its keys in insertion order, which
    is the order Python's `dict` lists them in. The chat model is a
    parameter. */
module ThreadStore {

  import opened Wrappers
  import opened Messages

  datatype Store = Store(threads: map<string, seq<Message>>, order: seq<string>)

  /** The key list holds each key of the map exactly once. */
  ghost predicate WellFormed(s: Store) {
    && (forall i, j :: 0 <= i < j < |s.order| ==> s.order[i] != s.order[j])
    && (forall k :: k in s.threads <==> k in s.order)
  }

  /** `ThreadStore()` */
  function EmptyStore(): (s: Store)
    ensures WellFormed(s) && s.order == [] && s.threads == map[]
  {
    Store(map[], [])
  }

  /** `get_thread`: the thread's messages, or none for an unknown id (which
      does not create a thread). */
  function GetThread(s: Store, id: string): (r: seq<Message>)
    ensures id !in s.threads ==> r == []
    ensures id in s.threads ==> r == s.threads[id]
  {
    if id in s.threads then s.threads[id] else []
  }

  /** `add_message`: appends to the end of one thread, creating it first if
      needed; every other thread is left as it was. */
  function AddMessage(s: Store, id: string, m: Message): (r: Store)
    ensures WellFormed(s) ==> WellFormed(r)
    ensures GetThread(r, id) == GetThread(s, id) + [m]
    ensures forall k :: k != id ==> GetThread(r, k) == GetThread(s, k)
    ensures r.order == if id in s.threads then s.order else s.order + [id]
  {
    var prior := GetThread(s, id);
    var order := if id in s.threads then s.order else s.order + [id];
    Store(s.threads[id := prior + [m]], order)
  }

  /** `get_all_threads`: the ids in the order they first received a message. */
  function GetAllThreads(s: Store): (r: seq<string>)
    ensures WellFormed(s) ==> forall k :: k in r <==> k in s.threads
    ensures WellFormed(s) ==> forall i, j :: 0 <= i < j < |r| ==> r[i] != r[j]
  {
    s.order
  }

  /** Appends `ms` one by one to a thread. */
  function AddMessages(s: Store, id: string, ms: seq<Message>): (r: Store)
    ensures WellFormed(s) ==> WellFormed(r)
    ensures GetThread(r, id) == GetThread(s, id) + ms
    ensures forall k :: k != id ==> GetThread(r, k) == GetThread(s, k)
    decreases |ms|
  {
    if |ms| == 0 then s
    else
      var r := AddMessages(AddMessage(s, id, ms[0]), id, ms[1..]);
      assert [ms[0]] + ms[1..] == ms;
      r
  }

  /** The system message the chat node adds when a conversation lacks one. */
  const SystemPrompt := Message(System, "You are a helpful assistant. Keep responses concise and friendly.", [])

  /** The thread a chat state names, `"default"` when it names none. */
  function ThreadOf(threadId: Option<string>): string {
    match threadId
    case Some(id) => id
    case None => "default"
  }

  /** What the model is shown: the thread's history and the new messages,
      with the system message in front when they do not already start with one. */
  function ModelInput(history: seq<Message>, incoming: seq<Message>): (r: seq<Message>)
    ensures |r| > 0 && r[0].role == System
    ensures |history + incoming| > 0 && (history + incoming)[0].role == System ==> r == history + incoming
    ensures (|history + incoming| == 0 || (history + incoming)[0].role != System) ==>
      r == [SystemPrompt] + history + incoming
  {
    var all := history + incoming;
    if |all| == 0 || all[0].role != System then [SystemPrompt] + all else all
  }

  /** `chat_node`: asks the model with the thread's history plus the new
      messages, then stores the new messages and the reply in that thread
      (never the added system message), and returns the reply. */
  function ChatNode(s: Store, threadId: Option<string>, incoming: seq<Message>,
                    respond: seq<Message> -> Message): (r: (Store, seq<Message>))
    ensures WellFormed(s) ==> WellFormed(r.0)
    ensures var id := ThreadOf(threadId);
      && r.1 == [respond(ModelInput(GetThread(s, id), incoming))]
      && GetThread(r.0, id) == GetThread(s, id) + incoming + r.1
      && |GetThread(r.0, id)| == |GetThread(s, id)| + |incoming| + 1
      && forall k :: k != id ==> GetThread(r.0, k) == GetThread(s, k)
  {
    var id := ThreadOf(threadId);
    var response := respond(ModelInput(GetThread(s, id), incoming));
    var s1 := AddMessages(s, id, incoming);
    (AddMessage(s1, id, response), [response])
  }

  /** The store after the `add_message` calls `ops`, made in order on a new store. */
  function Replay(ops: seq<(string, Message)>): (s: Store)
    ensures WellFormed(s)
  {
    if |ops| == 0 then EmptyStore()
    else
      var last := ops[|ops| - 1];
      AddMessage(Replay(ops[..|ops| - 1]), last.0, last.1)
  }

  /** The distinct entries of `ids`, each at the place it first occurs. */
  function FirstSeen(ids: seq<string>): seq<string> {
    if |ids| == 0 then []
    else
      var seen := FirstSeen(ids[..|ids| - 1]);
      if ids[|ids| - 1] in seen then seen else seen + [ids[|ids| - 1]]
  }

  /** `get_all_threads` lists exactly the ids that received a message, in
      the order of their first message. */
  lemma {:induction false} AllThreadsInFirstMessageOrder(ops: seq<(string, Message)>)
    ensures GetAllThreads(Replay(ops)) == FirstSeen(seq(|ops|, i requires 0 <= i < |ops| => ops[i].0))
  {
    if |ops| > 0 {
      var front := ops[..|ops| - 1];
      AllThreadsInFirstMessageOrder(front);
      var ids := seq(|ops|, i requires 0 <= i < |ops| => ops[i].0);
      var frontIds := seq(|front|, i requires 0 <= i < |front| => front[i].0);
      assert ids[..|ids| - 1] == frontIds;
    }
  }
}

=== FILE: tool_args.dfy ===
/** What the task tools of the voice todo app share: Python truthiness of
    optional arguments, the priority and category vocabularies, the outcomes
    a tool reports, and the way a tool settles which task is meant. */
module ToolArgs {

  import opened Wrappers
  import opened Text
  import opened Clock
  import opened Models
  import opened RelativeDate
  import opened TaskOrder
  import opened TaskStore

  /** An optional integer argument is "given" when it is truthy: present and non-zero. */
  predicate IntGiven(o: Option<int>) {
    o.Some? && o.value != 0
  }

  /** An optional string argument is "given" when it is truthy: present and non-empty. */
  predicate TextGiven(o: Option<string>) {
    o.Some? && o.value != ""
  }

  /** The tools' priority map, looked up with the lower-cased argument. */
  function PriorityAlias(v: string): (r: Option<Priority>)
    ensures r.Some? <==> Lower(v) == "low" || Lower(v) == "medium" || Lower(v) == "high"
    ensures r.Some? ==> PriorityValue(r.value) == Lower(v)
  {
    PriorityFromValue(Lower(v))
  }

  /** The tools' category map, looked up with the trimmed, lower-cased
      argument; it also accepts `admin` and `shop`. */
  function CategoryAlias(v: string): (r: Option<Category>)
    ensures var k := Lower(Strip(v));
      && (r == Some(Work) <==> k == "work")
      && (r == Some(Personal) <==> k == "personal")
      && (r == Some(Administrative) <==> k == "administrative" || k == "admin")
      && (r == Some(Shopping) <==> k == "shopping" || k == "shop")
  {
    var k := Lower(Strip(v));
    if k == "admin" then Some(Administrative)
    else if k == "shop" then Some(Shopping)
    else CategoryFromValue(k)
  }

  /** A text argument that is given but blank once trimmed. */
  predicate BlankGiven(o: Option<string>) {
    TextGiven(o) && Strip(o.value) == ""
  }

  /** A priority argument that is absent or one the priority map knows. */
  predicate KnownPriority(o: Option<string>) {
    !TextGiven(o) || PriorityAlias(o.value).Some?
  }

  /** A category argument that is absent or one the category map knows. */
  predicate KnownCategory(o: Option<string>) {
    !TextGiven(o) || CategoryAlias(o.value).Some?
  }

  /** The `scheduled_time` argument resolved by the relative date resolver;
      no schedule when it is not given. */
  function Schedule(env: Env, given: Option<string>): (r: Result<Option<DateTime>, DateError>)
    ensures !TextGiven(given) ==> r == Success(None)
    ensures TextGiven(given) ==>
      var parsed := ParseRelativeDate(given.value, env.now, env.parse);
      && (r.Success? <==> parsed.Success?)
      && (r.Success? ==> r.value == Some(parsed.value))
      && (r.Failure? ==> r.error == parsed.error)
  {
    if !TextGiven(given) then Success(None)
    else
      match ParseRelativeDate(given.value, env.now, env.parse)
      case Success(d) => Success(Some(d))
      case Failure(e) => Failure(e)
  }

  /** The reply to a schedule the resolver refused: its ValueErrors are
      caught and reported, but an OverflowError passes both `except
      ValueError` handlers and ends in the tool's outer handler. */
  function ScheduleError(given: string, e: DateError): (o: Outcome)
    ensures o == Crashed <==> e == OutOfRange
    ensures o != Crashed ==> o == Unschedulable(given)
  {
    if e == OutOfRange then Crashed else Unschedulable(given)
  }

  /** The collaborators a tool call runs against: the clock reading, the
      date parser, the ISO encoding and the store's nearest-neighbour query. */
  datatype Env = Env(now: DateTime, parse: DateParser, codec: IsoCodec, nearest: Ranking)

  /** What a tool call reports; each constructor stands for one reply of the source. */
  datatype Outcome =
    | Created(task: Task)
    | Updated(id: int, title: string)
    | Deleted(id: int, title: string)
    | BlankTitle                  // the title is empty after trimming
    | BlankNewTitle               // the new title is only whitespace
    | InvalidPriority(given: string)
    | InvalidCategory(given: string)
    | Unschedulable(given: string)
    | NoTitleMatch(title: string) // the title search found nothing
    | NumberNotFound(n: int)      // the position is outside the task list
    | AskWhich                    // no task was identified
    | NotFound(id: int)
    | NoFields                    // the update sets nothing
    | Crashed                     // an exception caught by the tool's outer handler

  /** Whether the outcome reports a change the tool made to the store. */
  predicate Mutated(o: Outcome) {
    o.Created? || o.Updated? || o.Deleted?
  }

  /** The id of the first task a title search lists, which is the newest of
      the ten nearest matches, not the nearest one. */
  function FirstSearchHit(db: Database, title: string, env: Env): (r: Option<int>)
    ensures var hits := SearchTasks(db, title, env.nearest, env.codec);
      && (r.None? <==> hits == [])
      && (r.Some? ==> exists t :: t in hits && t.id == r.value && forall u :: u in hits ==> Key(u) <= Key(t))
  {
    var hits := SearchTasks(db, title, env.nearest, env.codec);
    if hits == [] then None
    else
      assert hits[0] in hits;
      assert forall u :: u in hits ==> Key(u) <= Key(hits[0]) by {
        forall u | u in hits ensures Key(u) <= Key(hits[0]) {
          var j :| 0 <= j < |hits| && hits[j] == u;
          if j > 0 {
            assert Key(hits[0]) >= Key(hits[j]);
          }
        }
      }
      Some(hits[0].id)
  }

  /** Among the newest hits, the one the ranking lists first is picked:
      the tie order the stable sort keeps. */
  lemma FirstSearchHitBreaksTiesByRank(db: Database, title: string, env: Env)
    ensures var hits := SearchTasks(db, title, env.nearest, env.codec);
      var ranked := ConvertAll(TopHits(env.nearest(EmbeddingOf(title), db.records)), env.codec);
      hits != [] && ranked.Some? ==>
        && |CreatedAt(ranked.value, Key(hits[0]))| > 0
        && FirstSearchHit(db, title, env) == Some(CreatedAt(ranked.value, Key(hits[0]))[0].id)
  {
    var hits := SearchTasks(db, title, env.nearest, env.codec);
    var ranked := ConvertAll(TopHits(env.nearest(EmbeddingOf(title), db.records)), env.codec);
    if hits != [] && ranked.Some? {
      SearchKeepsRankingOnTies(db, title, env.nearest, env.codec, Key(hits[0]));
      assert CreatedAt(hits, Key(hits[0]))[0] == hits[0];
    }
  }

  /** The shared resolution step: an explicit id wins; without one, a title
      search supplies the first hit; with neither, the tool asks which task. */
  function ResolveTarget(db: Database, env: Env, id: Option<int>, title: Option<string>): (r: Result<int, Outcome>)
    ensures r.Success? ==> r.value != 0
    ensures IntGiven(id) ==> r == Success(id.value)
    ensures !IntGiven(id) && !TextGiven(title) ==> r == Failure(AskWhich)
    ensures !IntGiven(id) && TextGiven(title) ==>
      var hit := FirstSearchHit(db, title.value, env);
      && (hit.None? ==> r == Failure(NoTitleMatch(title.value)))
      && (hit.Some? && hit.value != 0 ==> r == Success(hit.value))
      && (hit.Some? && hit.value == 0 ==> r == Failure(AskWhich))
    ensures r.Failure? ==> r.error == AskWhich || r.error.NoTitleMatch?
  {
    if !IntGiven(id) && TextGiven(title) then
      match FirstSearchHit(db, title.value, env)
      case None => Failure(NoTitleMatch(title.value))
      case Some(hit) => if hit != 0 then Success(hit) else Failure(AskWhich)
    else if !IntGiven(id) then Failure(AskWhich)
    else Success(id.value)
  }
}

=== FILE: wiki_topic.dfy ===
/** The topic the Wikipedia voice bot looks up for a spoken question: the
    question lower-cased and trimmed, stripped of one leading question
    phrase and of a leading "about", cut at the first comma, " and ",
    " or " or question mark, and title-cased; the trimmed question itself
    when that leaves nothing. */
module WikiTopic {

  import opened Wrappers
  import opened Text

  /** The question phrases, tried in this order; the first that starts the
      question is removed. */
  const Starters: seq<string> := [
    "tell me about", "what is", "who is", "what are", "who are",
    "explain", "describe", "hey", "hi", "hello", "can you tell me",
    "i want to know about", "tell me", "what do you know about"]

  /** The characters trimmed from the end after a phrase is removed. */
  const TrailingPunctuation: set<char> := {'.', ',', '!', '?'}

  /** The index of the first phrase in `Starters` at or after `i` that `s` starts with. */
  function StarterFrom(s: string, i: nat): (r: Option<nat>)
    ensures r.Some? ==> i <= r.value < |Starters| && Starters[r.value] <= s
    ensures r.Some? ==> forall j :: i <= j < r.value ==> !(Starters[j] <= s)
    ensures r.None? ==> forall j :: i <= j < |Starters| ==> !(Starters[j] <= s)
    decreases |Starters| - i
  {
    if i >= |Starters| then None
    else if Starters[i] <= s then Some(i)
    else StarterFrom(s, i + 1)
  }

  /** The phrase removed from `s`: the first of the list that starts it. */
  function FirstStarter(s: string): (r: Option<nat>)
    ensures r.Some? ==> r.value < |Starters| && Starters[r.value] <= s
    ensures r.Some? ==> forall j :: 0 <= j < r.value ==> !(Starters[j] <= s)
    ensures r.None? <==> forall j :: 0 <= j < |Starters| ==> !(Starters[j] <= s)
  {
    StarterFrom(s, 0)
  }

  /** Removes the first matching question phrase, trims, and drops trailing
      punctuation; a question that starts with none is kept as it is. */
  function DropStarter(s: string): (r: string)
    ensures FirstStarter(s).None? ==> r == s
    ensures FirstStarter(s).Some? ==>
      var rest := Strip(s[|Starters[FirstStarter(s).value]|..]);
      && r <= rest
      && (|r| > 0 ==> r[|r| - 1] !in TrailingPunctuation)
      && forall i :: |r| <= i < |rest| ==> rest[i] in TrailingPunctuation
  {
    match FirstStarter(s)
    case None => s
    case Some(i) => RStripChars(Strip(s[|Starters[i]|..]), TrailingPunctuation)
  }

  /** "about X" becomes X, trimmed. */
  function DropAbout(s: string): (r: string)
    ensures !("about " <= s) ==> r == s
    ensures "about " <= s ==> r == Strip(s[6..])
  {
    if "about " <= s then Strip(s[|"about "|..]) else s
  }

  /** The lower-case topic, before title-casing. */
  function TopicKey(question: string): string {
    var s := DropAbout(DropStarter(Strip(Lower(question))));
    Strip(SplitFirst(SplitFirst(SplitFirst(SplitFirst(s, ","), " and "), " or "), "?"))
  }

  /** A letter with an upper and a lower case; only the ASCII letters are modelled. */
  predicate IsCased(c: char) {
    'a' <= c <= 'z' || 'A' <= c <= 'Z'
  }

  function UpperChar(c: char): char {
    if 'a' <= c <= 'z' then (c as int - 32) as char else c
  }

  /** `str.title()` for text whose previous character was cased or not:
      a cased letter is upper-cased when it follows an uncased character
      and lower-cased when it follows a cased one. */
  function TitleFrom(s: string, afterCased: bool): (r: string)
    ensures |r| == |s|
    ensures forall i :: 0 <= i < |s| ==> LowerChar(r[i]) == LowerChar(s[i])
    ensures forall i :: 0 <= i < |s| && !IsCased(s[i]) ==> r[i] == s[i]
    ensures |s| > 0 && IsCased(s[0]) && !afterCased ==> r[0] == UpperChar(s[0])
    ensures forall i :: 0 < i < |s| && IsCased(s[i]) && !IsCased(s[i - 1]) ==> r[i] == UpperChar(s[i])
    ensures forall i :: 0 < i < |s| && IsCased(s[i]) && IsCased(s[i - 1]) ==> r[i] == LowerChar(s[i])
    decreases |s|
  {
    if |s| == 0 then ""
    else
      var c := s[0];
      var head := if !IsCased(c) then c else if afterCased then LowerChar(c) else UpperChar(c);
      var tail := TitleFrom(s[1..], IsCased(c));
      var r := [head] + tail;
      assert forall i :: 0 < i < |s| ==> s[i] == s[1..][i - 1] && r[i] == tail[i - 1];
      r
  }

  /** `str.title()`: every cased letter that starts a run of cased letters
      is upper-cased, every other one lower-cased, and nothing else changes. */
  function Title(s: string): (r: string)
    ensures |r| == |s|
    ensures Lower(r) == Lower(s)
    ensures forall i :: 0 <= i < |s| && !IsCased(s[i]) ==> r[i] == s[i]
    ensures |s| > 0 && IsCased(s[0]) ==> r[0] == UpperChar(s[0])
    ensures forall i :: 0 < i < |s| && IsCased(s[i]) && !IsCased(s[i - 1]) ==> r[i] == UpperChar(s[i])
    ensures forall i :: 0 < i < |s| && IsCased(s[i]) && IsCased(s[i - 1]) ==> r[i] == LowerChar(s[i])
  {
    TitleFrom(s, false)
  }

  /** `extract_topic`: the title-cased topic, or the trimmed question when
      no topic is left. */
  function ExtractTopic(question: string): (r: string)
    ensures TopicKey(question) == "" ==> r == Strip(question)
    ensures TopicKey(question) != "" ==> r == Title(TopicKey(question))
    ensures TopicKey(question) != "" ==>
      |r| == |TopicKey(question)| && Lower(r) == TopicKey(question)
  {
    var key := TopicKey(question);
    var topic := Title(key);
    if topic != "" then
      TopicIsLowerCase(question);
      topic
    else Strip(question)
  }

  /** `t` is a contiguous piece of `s`. */
  predicate SliceOf(t: string, s: string) {
    exists a, b :: 0 <= a <= b <= |s| && s[a..b] == t
  }

  lemma SliceTrans(u: string, t: string, s: string)
    requires SliceOf(u, t) && SliceOf(t, s)
    ensures SliceOf(u, s)
  {
    var c, d :| 0 <= c <= d <= |t| && t[c..d] == u;
    var a, b :| 0 <= a <= b <= |s| && s[a..b] == t;
    assert forall k :: 0 <= k < d - c ==> s[a + c + k] == t[c + k] == u[k];
    assert s[a + c..a + d] == u;
  }

  lemma PrefixSlice(t: string, s: string)
    requires t <= s
    ensures SliceOf(t, s)
  {
    assert s[0..|t|] == t;
  }

  lemma SuffixSlice(s: string, k: nat)
    requires k <= |s|
    ensures SliceOf(s[k..], s)
  {
    assert s[k..|s|] == s[k..];
  }

  /** Trimming keeps a contiguous piece. */
  lemma StripSlice(s: string)
    ensures SliceOf(Strip(s), s)
  {
    var l := LStrip(s);
    SuffixSlice(s, |s| - |l|);
    PrefixSlice(RStrip(l), l);
    SliceTrans(Strip(s), l, s);
  }

  /** A piece of a string that does not contain `sub` does not contain it either. */
  lemma NoOccurrenceInPiece(t: string, s: string, sub: string)
    requires SliceOf(t, s) && !Contains(s, sub)
    ensures !Contains(t, sub)
  {
    var a, b :| 0 <= a <= b <= |s| && s[a..b] == t;
    NoOccurrenceInSlice(s, sub, a, b);
  }

  /** Every step of `TopicKey` keeps a contiguous piece of its input. */
  lemma KeyIsPieceOfQuestion(question: string)
    ensures SliceOf(TopicKey(question), Lower(question))
  {
    var s0 := Lower(question);
    var s1 := Strip(s0);
    var s2 := DropStarter(s1);
    var s3 := DropAbout(s2);
    var c := SplitFirst(SplitFirst(SplitFirst(SplitFirst(s3, ","), " and "), " or "), "?");
    StripSlice(s0);
    StarterPiece(s1);
    SliceTrans(s2, s1, s0);
    AboutPiece(s2);
    SliceTrans(s3, s2, s0);
    PrefixesChain(s3);
    PrefixSlice(c, s3);
    SliceTrans(c, s3, s0);
    StripSlice(c);
    SliceTrans(Strip(c), c, s0);
  }

  lemma StarterPiece(s: string)
    ensures SliceOf(DropStarter(s), s)
  {
    var r := DropStarter(s);
    if FirstStarter(s).Some? {
      var k := |Starters[FirstStarter(s).value]|;
      var rest := Strip(s[k..]);
      SuffixSlice(s, k);
      StripSlice(s[k..]);
      SliceTrans(rest, s[k..], s);
      PrefixSlice(r, rest);
      SliceTrans(r, rest, s);
    } else {
      PrefixSlice(r, s);
    }
  }

  lemma AboutPiece(s: string)
    ensures SliceOf(DropAbout(s), s)
  {
    if "about " <= s {
      SuffixSlice(s, 6);
      StripSlice(s[6..]);
      SliceTrans(DropAbout(s), s[6..], s);
    } else {
      PrefixSlice(s, s);
    }
  }

  /** The four cuts keep a prefix, and together remove every separator. */
  lemma PrefixesChain(s: string)
    ensures var a := SplitFirst(s, ",");
      var b := SplitFirst(a, " and ");
      var c := SplitFirst(b, " or ");
      var d := SplitFirst(c, "?");
      && d <= s
      && !Contains(d, ",") && !Contains(d, " and ") && !Contains(d, " or ") && !Contains(d, "?")
  {
    var a := SplitFirst(s, ",");
    var b := SplitFirst(a, " and ");
    var c := SplitFirst(b, " or ");
    var d := SplitFirst(c, "?");
    PrefixSlice(b, a);
    NoOccurrenceInPiece(b, a, ",");
    PrefixSlice(c, b);
    NoOccurrenceInPiece(c, b, ",");
    NoOccurrenceInPiece(c, b, " and ");
    PrefixSlice(d, c);
    NoOccurrenceInPiece(d, c, ",");
    NoOccurrenceInPiece(d, c, " and ");
    NoOccurrenceInPiece(d, c, " or ");
  }

  /** The topic is the first phrase only: it holds no comma, question mark,
      " and " or " or ", and has no surrounding whitespace. */
  lemma {:induction false} TopicIsFirstPhrase(question: string)
    ensures var key := TopicKey(question);
      && !Contains(key, ",") && !Contains(key, "?")
      && !Contains(key, " and ") && !Contains(key, " or ")
      && (|key| > 0 ==> !IsSpace(key[0]) && !IsSpace(key[|key| - 1]))
  {
    var s := DropAbout(DropStarter(Strip(Lower(question))));
    var d := SplitFirst(SplitFirst(SplitFirst(SplitFirst(s, ","), " and "), " or "), "?");
    PrefixesChain(s);
    StripSlice(d);
    NoOccurrenceInPiece(Strip(d), d, ",");
    NoOccurrenceInPiece(Strip(d), d, "?");
    NoOccurrenceInPiece(Strip(d), d, " and ");
    NoOccurrenceInPiece(Strip(d), d, " or ");
  }

  /** The topic is lower-case: a piece of the lower-cased question. */
  lemma TopicIsLowerCase(question: string)
    ensures Lower(TopicKey(question)) == TopicKey(question)
  {
    KeyIsPieceOfQuestion(question);
    PieceOfLowerIsLower(TopicKey(question), question);
  }

  /** `r` is `s` with each word capitalised: a letter that starts a run of
      letters is a capital, and every later letter of the run is small. */
  predicate WordsCapitalised(s: string, r: string) {
    && |r| == |s|
    && (forall i :: 0 <= i < |s| && IsCased(s[i]) && (i == 0 || !IsCased(s[i - 1])) ==> 'A' <= r[i] <= 'Z')
    && (forall i :: 0 < i < |s| && IsCased(s[i]) && IsCased(s[i - 1]) ==> 'a' <= r[i] <= 'z')
  }

  /** `Title` capitalises each word of a lower-case text. */
  lemma TitleCapitalisesWords(key: string)
    requires forall i :: 0 <= i < |key| ==> LowerChar(key[i]) == key[i]
    ensures WordsCapitalised(key, Title(key))
  {
    var r := Title(key);
    forall i | 0 <= i < |key| && IsCased(key[i]) && (i == 0 || !IsCased(key[i - 1]))
      ensures 'A' <= r[i] <= 'Z'
    {
      CapitalOfSmallLetter(key[i]);
    }
    forall i | 0 < i < |key| && IsCased(key[i]) && IsCased(key[i - 1])
      ensures 'a' <= r[i] <= 'z'
    {
      SmallOfLetter(key[i]);
    }
  }

  lemma CapitalOfSmallLetter(c: char)
    requires IsCased(c) && LowerChar(c) == c
    ensures 'A' <= UpperChar(c) <= 'Z'
  {
  }

  lemma SmallOfLetter(c: char)
    requires IsCased(c)
    ensures 'a' <= LowerChar(c) <= 'z'
  {
  }

  /** The topic comes back with each of its words capitalised. */
  lemma TopicWordsCapitalised(question: string)
    ensures TopicKey(question) != "" ==> WordsCapitalised(TopicKey(question), ExtractTopic(question))
  {
    var key := TopicKey(question);
    if key != "" {
      TopicIsLowerCase(question);
      LowerFixedPointChars(key);
      TitleCapitalisesWords(key);
    }
  }

  lemma LowerFixedPointChars(s: string)
    requires Lower(s) == s
    ensures forall i :: 0 <= i < |s| ==> LowerChar(s[i]) == s[i]
  {
    assert forall i :: 0 <= i < |s| ==> Lower(s)[i] == LowerChar(s[i]);
  }

  lemma PieceOfLowerIsLower(t: string, s: string)
    requires SliceOf(t, Lower(s))
    ensures Lower(t) == t
  {
    var a, b :| 0 <= a <= b <= |Lower(s)| && Lower(s)[a..b] == t;
    assert forall k :: 0 <= k < |t| ==> t[k] == LowerChar(s[a + k]);
  }

  /** The phrases are matched as plain prefixes, not as words: any question
      that starts with "hi" loses those two letters, so "history of rome"
      is looked up as "story of rome". */
  lemma HiCutsAnyWord(rest: string)
    ensures FirstStarter("hi" + rest) == Some(8)
    ensures DropStarter("hi" + rest) == RStripChars(Strip(rest), TrailingPunctuation)
  {
    var h := "hi" + rest;
    assert h[0] == 'h' && h[1] == 'i';
    assert !(Starters[0] <= h) && !(Starters[1] <= h) && !(Starters[2] <= h) && !(Starters[3] <= h);
    assert !(Starters[4] <= h) && !(Starters[5] <= h) && !(Starters[6] <= h);
    assert Starters[7] == "hey" && !(Starters[7] <= h);
    assert Starters[8] == "hi" && Starters[8] <= h;
    assert StarterFrom(h, 0) == Some(8);
    assert h[|Starters[8]|..] == rest;
  }
}

=== FILE: wrappers.dfy ===
/** Option and Result, the two failure-carrying shapes the rest of the model uses
    in place of Python's None and raised exceptions. */
module Wrappers {

  datatype Option<+T> = None | Some(value: T) {

    /** The wrapped value, or `default` for None (Python's `x or default`
        when only None is falsy). */
    function GetOr(default: T): T {
      match this
      case Some(v) => v
      case None => default
    }
  }

  datatype Result<+R, +E> = Success(value: R) | Failure(error: E) {

    function ToOption(): Option<R> {
      match this
      case Success(v) => Some(v)
      case Failure(_) => None
    }
  }
}
